=== FILE: README.md ===
# Farashan media: moderation and access-control model

A Dafny model of the logic of a media-sharing community site. Members upload
audio and video recordings in two categories, speeches (SPEECH) and devotional
recitations (MANQABAT). Moderators approve or reject each submission, and
visitors browse the approved posts. The model covers:

- the identity store (`AuthService`): super-admin seeding on the first read,
  register, login, logout, role change, soft-delete and restore, and the
  session snapshot;
- the content store (`ContentService`): save, update, delete, comments, the
  view counter and the two-posts-per-calendar-month limit;
- the pages built on those stores: the admin dashboard (`AdminPage`), the
  submission page (`AddPage`), the two public archives (`Listings`), the
  member's own page (`ProfilePage`) and the post card (`PostCard`). Their
  role tests are gathered in `Access`.

Each operation is a pure function from store values to new store values or to
a `Result`. The users blob is `Option<seq<User>>`: `None` means nothing is
stored yet, and any read then seeds and persists the super-administrator. The
session is `Option<User>`, a stored copy of one user record, which is what
`getCurrentUser` returns. The posts store is a `seq<Post>`, newest first.
`find` and `findIndex` act on the first match (`Seqs.FindFirst`), while
`deletePost` removes every match (`Seqs.Filter`).

These values are parameters:

- timestamps, as the local calendar `Stamp(year, month)` they fall in;
- "now";
- fresh ids;
- the upload service's answer for each file;
- the external ranking service's answer on the speeches page.

On the submission page, the browser's `required` check on title and
description (app/add/page.tsx:118 and 178) runs before the submit handler. It
is modelled as a `FieldsRequired` refusal that comes before the handler's own
guards.

Property modules (`AuthProperties`, `ContentProperties`, `AdminProperties`,
`Scenarios`) relate several operations: round trips, invariants they keep and
end-to-end flows.

Places where the code does something other than what a reader of the pages
might expect; the model follows the code:

- Users table delete button: one might expect a SUPER_ADMIN to be protected
  from every control on the users table. The code hides only the role buttons
  on a SUPER_ADMIN row. It offers the soft-delete button on every active row,
  the SUPER_ADMIN's included, to any moderator (app/admin/page.tsx:129-137).
  `AdminProperties.SuperAdminRowStillDeletable` states this.
- Role changes by an ADMIN: only the promote and demote buttons are limited to
  a SUPER_ADMIN viewer (app/admin/page.tsx:139). `handleUserAction`
  (app/admin/page.tsx:53-59) checks no role itself, so an ADMIN whose request
  reaches it changes roles. `AdminProperties.AdminCanChangeRoleThroughHandler`
  states this; `AdminProperties.AdminViewerKeepsRoles` covers only the buttons
  an ADMIN is offered.
- Failed register or login: one might expect a refusal to leave the store
  unchanged. In the code, the read that comes before the check persists the
  seeded super-administrator when nothing was stored yet. So "unchanged" holds
  up to that seed (`AuthService.Materialised`).
- Open cards after a comment or a download: one might expect the card on
  screen to show the new comment count or view count at once. The card shows
  its `post` prop (components/PostCard.tsx:108), which the archive pages load
  once when they mount (app/speeches/page.tsx:16-21, app/manqabat/page.tsx:16-21).
  `handleComment` and `handleDownload` only write the store
  (components/PostCard.tsx:22-45), so the open card keeps the old numbers until
  the page reads the posts again. `Scenarios.CommentRaisesCount` is about the
  stored post.
- Search query: one might expect the search to use the trimmed query. The
  substring search uses the untrimmed query; only the blank test trims it.

## Model

| member | source | states |
|---|---|---|
| `AuthService.GetUsers` | services/authService.ts:9-26 | an empty store reads as exactly one active SUPER_ADMIN with id `super-admin-id` and the bootstrap email and password; a stored list reads as itself |
| `AuthService.Register` | services/authService.ts:28-55 | fails with DuplicateEmail iff any user, deleted or not, has the email, and then leaves users and session unchanged; otherwise appends exactly one active USER with the given id, email, password and defaulted name, and makes it the session |
| `AuthService.RegisterForm` | app/register/page.tsx:13-29 | a password differing from its confirmation is refused before the store is read; otherwise the outcome is that of register |
| `AuthService.Login` | services/authService.ts:57-77 | InvalidCredentials iff no user matches email and password exactly; AccountDisabled only when a matching user is deleted; the first user matching both decides: AccountDisabled iff it is deleted, otherwise it is returned and becomes the session, with users unchanged |
| `AuthService.Logout` | services/authService.ts:79-81 | the session is empty afterwards whatever it held, and the users blob is untouched |
| `AuthProperties.CurrentUserFollowsSignIn` | services/authService.ts:83-86 | the current user is the one the last successful register or login returned, a refusal keeps the previous one, logout clears it, and a role change or delete leaves the signed-in snapshot stale |
| `AuthService.ModifyUser` | services/authService.ts:89-114 | only the first user with the id is changed, the others and the session are untouched, and the length is kept |
| `AuthService.UpdateUserRole` | services/authService.ts:89-96 | only the role of the first user with that id changes; a missing id changes nothing; the session snapshot is not refreshed |
| `AuthService.DeleteUser` | services/authService.ts:98-105 | only `isDeleted` of the first user with that id becomes true; a missing id changes nothing |
| `AuthService.RestoreUser` | services/authService.ts:107-114 | only `isDeleted` of the first user with that id becomes false; a missing id changes nothing |
| `Seqs.BeforeFirst` | services/authService.ts:41 | the result is a prefix of the email without '@', and is followed by '@' unless it is the whole email |
| `AuthProperties.SeedCanSignIn` | services/authService.ts:11-23 | the seeded store has unique ids and emails, and the bootstrap credentials sign in as the SUPER_ADMIN |
| `AuthProperties.RegisterKeepsWellFormed` | services/authService.ts:32-51 | with a fresh id, registration keeps user ids and emails unique |
| `AuthProperties.RegisterTwiceFails` | services/authService.ts:32-35 | after an email is registered, registering it again fails with DuplicateEmail for any password, name or id, and changes nothing |
| `AuthProperties.RegisterThenLogin` | services/authService.ts:37-73 | a freshly registered account signs in with its password as the same user record |
| `AuthProperties.WrongPasswordBeatsDisabled` | services/authService.ts:61-71 | a deleted user with a wrong password gets InvalidCredentials, not AccountDisabled |
| `AuthProperties.LoginFinds` | services/authService.ts:61 | with unique emails the credential search lands on the user holding those credentials |
| `AuthProperties.ModifyKeepsWellFormed` | services/authService.ts:89-114 | role and deleted-flag changes keep ids and emails unique |
| `AuthProperties.DeleteThenRestoreLogin` | services/authService.ts:57-114 | after soft-delete the user's login fails with AccountDisabled; after restore the same login succeeds |
| `AuthProperties.DeleteRestoreRoundTrip` | services/authService.ts:98-114 | restoring an account that was active before its deletion restores exactly the users that were read |
| `ContentService.GetPosts` | services/contentService.ts:7-10 | an absent posts blob reads as the empty store |
| `ContentService.SavePost` | services/contentService.ts:12-16 | the new post is at index 0 and the old posts follow in their order |
| `ContentService.UpdatePost` | services/contentService.ts:18-25 | replaces the first post with the same id in place; length and every other post preserved; no match is a no-op |
| `ContentService.DeletePost` | services/contentService.ts:27-31 | no post with the id remains, every other post remains, and the result keeps the original order |
| `ContentService.AddComment` | services/contentService.ts:45-53 | the comment is appended at the end of the first matching post's list (created when absent); other posts untouched; missing id is a no-op |
| `ContentService.IncrementView` | services/contentService.ts:55-62 | `views` of the first matching post rises by exactly 1; all other fields and posts unchanged; missing id is a no-op |
| `ContentProperties.DeleteMissingIsNoop` | services/contentService.ts:27-31 | deleting an id no post carries leaves the store equal |
| `ContentProperties.DeleteUndoesSave` | services/contentService.ts:12-31 | saving a post with a fresh id and deleting that id gives back the original store |
| `ContentProperties.DeleteIdempotent` | services/contentService.ts:27-31 | deleting twice equals deleting once |
| `ContentProperties.DeleteKeepsCopies` | services/contentService.ts:27-31 | every post without the id survives as many times as it occurred, and no copy of a post with the id survives |
| `ContentProperties.UpdateIdempotent` | services/contentService.ts:18-25 | writing the same post back twice equals writing it once |
| `ContentProperties.CountSplits` | services/contentService.ts:33-43 | the monthly count of a concatenated store is the sum of the counts of its parts |
| `ContentProperties.UncountedPostIgnored` | services/contentService.ts:36-40 | a post by another user or from another month or year, wherever it sits, changes neither the count nor `canUserPost` |
| `ContentProperties.SaveCountedRaisesCount` | services/contentService.ts:33-43 | saving one of the user's posts from the current month raises the count by exactly one |
| `ContentService.PostsThisMonth` | services/contentService.ts:36-41 | the monthly count never exceeds the store size and is zero iff no post of the user falls in the calendar month and year of `now` |
| `ContentService.CanUserPost` | services/contentService.ts:33-43 | true iff fewer than 2 posts of the user, of any status, fall in the calendar month and year of `now`; a user with no such post, or a store with fewer than 2 posts, may post (additivity in `CountSplits`, the ignored posts in `UncountedPostIgnored`, the boundary in `QuotaIsTwo`) |
| `ContentProperties.QuotaIsTwo` | services/contentService.ts:33-43 | from no counted posts: posting is allowed, still allowed after one, refused after two, and a post from another month does not count |
| `ContentProperties.CommentAppended` | services/contentService.ts:45-53 | with unique ids, the earlier comments are a prefix of the new list, the count rises by one, and every other post is unchanged |
| `Access.AdminLinkMatchesGate` | components/Layout.tsx:63 | the navigation's "role is not USER" test and the pages' "ADMIN or SUPER_ADMIN" test agree for every viewer |
| `AdminPage.PendingQueue` | app/admin/page.tsx:26 | the queue holds exactly the PENDING posts, in store order |
| `AdminPage.LoadDashboard` | app/admin/page.tsx:16-28 | loads iff the session is ADMIN or SUPER_ADMIN; then shows the pending queue and all users |
| `AdminPage.Moderate` | app/admin/page.tsx:30-44 | an id absent from the pending queue leaves the store unchanged; the length is always kept |
| `AdminPage.Approve` | app/admin/page.tsx:30-36 | denied to anyone but ADMIN or SUPER_ADMIN; an id not in the pending queue is a no-op |
| `AdminPage.Reject` | app/admin/page.tsx:38-44 | denied to anyone but ADMIN or SUPER_ADMIN; an id not in the pending queue is a no-op |
| `AdminPage.DeleteFromDashboard` | app/admin/page.tsx:46-51 | denied to non-moderators; otherwise no post with the id remains and the others keep their order |
| `AdminPage.Applied` | app/admin/page.tsx:53-57 | delete sets `isDeleted`, restore clears it, promote sets ADMIN, demote sets USER; id, email, name and password are kept |
| `AdminPage.HandleUserAction` | app/admin/page.tsx:53-59 | denied to non-moderators; otherwise only the first user with the id receives the action's change |
| `AdminPage.OfferedActions` | app/admin/page.tsx:129-149 | delete offered iff the row is active, restore iff deleted; promote iff the viewer is SUPER_ADMIN and the row is USER; demote iff the viewer is SUPER_ADMIN and the row is ADMIN |
| `AdminPage.PasswordCell` | app/admin/page.tsx:125-127 | the password cell exists iff the viewer is SUPER_ADMIN, and then shows the stored password |
| `AdminProperties.UpdateAtUniqueId` | services/contentService.ts:18-25 | with unique ids, updating overwrites exactly the post at the updated post's index |
| `AdminProperties.ModeratePendingPost` | app/admin/page.tsx:30-44 | with unique ids, moderating a pending post rewrites exactly that post |
| `AdminProperties.ModerateSettledPost` | app/admin/page.tsx:30-44 | with unique ids, an approved or rejected post is out of reach of moderation |
| `AdminProperties.ApproveOnlyFromPending` | app/admin/page.tsx:30-36 | approve changes only `status` of a pending post to APPROVED; on an approved or rejected post it is a no-op |
| `AdminProperties.RejectOnlyFromPending` | app/admin/page.tsx:38-44 | reject sets REJECTED and the reason verbatim, the empty string included, on a pending post only; otherwise a no-op |
| `AdminProperties.ApprovedLeavesQueue` | app/admin/page.tsx:24-36 | an approved post leaves the queue, and approving it again changes nothing |
| `AdminProperties.AdminViewerKeepsRoles` | app/admin/page.tsx:139-149 | no button offered to an ADMIN viewer changes any user's role |
| `AdminProperties.SuperAdminRowStillDeletable` | app/admin/page.tsx:129-149 | a SUPER_ADMIN row never offers promote or demote but does offer soft-delete to any moderator, which marks that record deleted |
| `AdminProperties.AdminCanChangeRoleThroughHandler` | app/admin/page.tsx:53-59 | an ADMIN viewer is offered no promote or demote button, yet the handler, which checks only for a moderator, performs the role change on the first user with the id |
| `AddPage.MaxMediaBytes` | app/add/page.tsx:40 | the media limit is 10·1024·1024 = 10485760 bytes |
| `AddPage.HandleFileChange` | app/add/page.tsx:36-49 | an oversized media file is refused with an error and the earlier media stays; other picks are taken and clear the error; picking nothing changes nothing |
| `AddPage.MediaTypeOf` | app/add/page.tsx:81 | video iff the MIME type starts with "video", otherwise audio |
| `AddPage.Submit` | app/add/page.tsx:52-97 | no session, an empty required field, missing media, a reached quota or a failed upload each store nothing; a saved post is PENDING with zero counters, no reason and no comments, carries the session user's id and name, the media URL and the poster URL exactly when a poster was picked, and goes in front; a signed-in submission with both fields, media, quota left and every asked upload accepted is always saved |
| `Scenarios.ReadySubmissionIsQueued` | app/add/page.tsx:52-97 | a signed-in author with a complete form, quota left and accepted uploads gets the new post saved, in the moderation queue and on their profile |
| `AddPage.SizeLimitInclusive` | app/add/page.tsx:40-44 | a file of exactly the limit is accepted; one byte more is refused and the previous media stays |
| `AddPage.GuardsPrecedeUpload` | app/add/page.tsx:52-62 | the sign-in, field, media and rate-limit refusals do not depend on the upload service's answer |
| `Listings.Listing` | app/speeches/page.tsx:18 | an archive holds exactly the APPROVED posts of its category, in store order |
| `Listings.SearchSpeeches` | app/speeches/page.tsx:23-69 | a blank query restores the listing; otherwise every substring match is kept and leads the result; with no ranking the result equals the matches; with a ranking it is exactly the listed posts that match or are ranked, and the part after the matches holds only non-matching listed posts, in listing order, as the de-duplicating `Set` leaves them |
| `Listings.SearchManqabat` | app/manqabat/page.tsx:23-38 | a blank query restores the listing; otherwise exactly the listed posts whose title or description contains the query; always a subsequence of the listing |
| `Listings.OpenArchive` | app/manqabat/page.tsx:16-21 | the page first shows exactly the approved posts of its category, in store order, as the archive listing |
| `Listings.DeleteFromArchive` | app/speeches/page.tsx:71-82 | anyone but ADMIN or SUPER_ADMIN changes nothing; a moderator removes every post with the id, keeps every other post of the store (pending posts and the other category included) in order, and the archive shown is recomputed from the new store in store order |
| `Listings.ArchiveDeleteCommutes` | app/manqabat/page.tsx:40-50 | recomputing the archive after a delete equals deleting from the archive shown |
| `ProfilePage.MyPosts` | app/profile/page.tsx:14-23 | without a session nothing is listed; otherwise exactly the posts with the viewer's id, of every status |
| `ProfilePage.StatusLabels` | app/profile/page.tsx:72-74 | each status renders exactly one label |
| `ProfilePage.StatusLabelsDistinguish` | app/profile/page.tsx:72-74 | different statuses never render the same label |
| `ProfilePage.ReasonPanel` | app/profile/page.tsx:79-84 | the rejection reason is shown iff the post is REJECTED |
| `PostCard.CommenterName` | components/PostCard.tsx:40 | an absent or empty name falls back to the default label; the name shown is never empty |
| `PostCard.HandleComment` | components/PostCard.tsx:32-45 | no session or blank text stores nothing; otherwise the untrimmed text is appended with the post id, the viewer's id and name to the first post with the id, exactly as `addComment` does; every other post and every other field of the target stay as they were, and a missing id stores nothing |
| `PostCard.HandleDownload` | components/PostCard.tsx:22-30 | a download adds one view to the first post with the id and changes nothing else, every `downloads` counter included; a missing id changes nothing |
| `PostCard.DownloadAddsOneView` | components/PostCard.tsx:22-23 | a download raises the total of all view counters by exactly one when the post is in the store, and by nothing otherwise |
| `PostCard.CommentCount` | components/PostCard.tsx:108 | the count shown is the length of the comment list, 0 when it is absent |
| `PostCard.ShowsDelete` | components/PostCard.tsx:98-113 | outside the admin view the delete button is shown iff the viewer is ADMIN or SUPER_ADMIN and a handler is given |
| `Scenarios.SubmissionAwaitsModeration` | app/add/page.tsx:73-89 | a new post is in the moderation queue and on its author's page but in no public archive |
| `Scenarios.ApprovedSubmissionIsListed` | app/admin/page.tsx:30-36 | a submission with a fresh id, once approved, is in the archive of its category |
| `Scenarios.RejectionReasonReachesAuthor` | app/profile/page.tsx:79-84 | after a rejection the author's page still lists the post and shows the typed reason |
| `Scenarios.ThirdSubmissionRefused` | app/add/page.tsx:59-62 | after two accepted submissions in a month, a third in that month fails with RateLimitExceeded |
| `Scenarios.CommentRaisesCount` | components/PostCard.tsx:32-45 | a comment from a signed-in viewer raises the stored post's comment count by one, which the card shows once the page reloads its posts |

## Left out

- Storage, timing and rendering: localStorage and JSON (de)serialisation, the
  `setTimeout` delays and promise plumbing, React state and effects, routing,
  confirmation dialogs (taken as accepted), and all JSX markup and styling.
- Pages: App.tsx, app/page.tsx, the login page and the rest of the navigation
  bar hold no rule beyond the admin-link test, which `Access` covers.
  services/serverSideCode.ts is commented-out reference code.
- Computed values taken as inputs: id generation (`Math.random`, `Date.now`)
  and the clock. "Now" and `createdAt` are reduced to the local calendar
  month and year, so the time-zone behaviour of `Date` is not modelled.
- Dates: the ISO conversion of the optional date field. The model keeps the
  typed string, so an unparsable date, which would throw inside the upload
  `try`, is not modelled.
- File upload: `uploadFileMock` and object URLs are an oracle answering a URL
  or a failure per file. The poster is asked only when one was picked.
- Ranking call: the external ranking call on the speeches page (prompt,
  network, JSON parsing) is an answer of "unavailable", "failed" or a list of
  titles.
- Dashboard reloads: the dashboard's copy of the queue is taken to be fresh.
  Every handler reloads it, and another tab writing in between is not
  modelled.
- Post card reject: the card's reject button forwards the typed text
  unchanged (components/PostCard.tsx:126). It has no function of its own here:
  `AdminPage.Reject` takes that text as its `reason`.
- Duplicate ids: the approve and reject lemmas assume unique post ids, and
  the login lemmas assume unique user ids and emails. Register keeps emails
  unique. Ids are random, and a collision is not modelled.
- AddPage.Submit: the quota check and the save are one step over one store and one clock reading. The page checks the quota with its own `new Date()` (services/contentService.ts:35), then awaits one or two simulated uploads of 1500 ms each (services/contentService.ts:65-72), and only then re-reads the store to save (services/contentService.ts:13) with a second clock reading (app/add/page.tsx:88). A post saved from another tab, or from a remounted form, in that window is not counted, so the monthly limit of two can be exceeded, and the stamped month can differ from the checked one. The model does not show either.
- Scenarios.CommentRaisesCount: the count proved is that of the stored post; the card already on screen is not refreshed, as described above.
- AuthService.RegisterForm: the `required` fields of the register form are not modelled. The browser refuses an empty name, email, password or confirmation (app/register/page.tsx:42-76) before `handleRegister` runs; the model accepts empty fields. The name fallback in `Register` is therefore reachable only through the service itself, not through the form.
- Concurrency: apart from the upload window above, handlers run to completion on one browser event loop, and writes from other tabs are not modelled.

=== FILE: access.dfy ===
/**
 The role tests scattered across the pages, gathered in one place: who may
 moderate (app/admin/page.tsx, the listing pages, components/PostCard.tsx)
 and who sees the admin-panel link (components/Layout.tsx).
 */
module Access {
  import opened Results
  import opened Types

  /** ADMIN or SUPER_ADMIN. */
  predicate IsModeratorRole(role: UserRole) {
    role == Admin || role == SuperAdmin
  }

  /** A signed-in viewer with a moderator role. */
  predicate CanModerate(viewer: Option<User>) {
    viewer.Some? && IsModeratorRole(viewer.value.role)
  }

  /** The navigation bar's test for the admin-panel link: signed in with any role other than USER. */
  predicate ShowsAdminLink(viewer: Option<User>) {
    viewer.Some? && viewer.value.role != Regular
  }

  /** The navigation link and the moderator test written at the pages agree on every viewer. */
  lemma AdminLinkMatchesGate(viewer: Option<User>)
    ensures ShowsAdminLink(viewer) <==> CanModerate(viewer)
    ensures viewer.None? ==> !CanModerate(viewer)
  {
  }
}

=== FILE: add_page.dfy ===
/**
 The submission page (app/add/page.tsx): the media-size check when a file is
 picked, and the guarded construction of a new post on submit. Uploads are an
 oracle that either yields a URL or fails; the fresh id and "now" are parameters.
 */
module AddPage {
  import opened Results
  import opened Types
  import opened Seqs
  import opened ContentService

  /** A picked file: its byte size and MIME type are all the page inspects. */
  datatype MediaFile = MediaFile(name: string, size: nat, mimeType: string)

  /** The two file inputs of the form. */
  datatype FileSlot = MediaSlot | PosterSlot

  /** The message the form shows about its files. */
  datatype FormError = FileTooLarge

  /** The form's state: text fields, chosen files and the file error on display. */
  datatype AddForm = AddForm(
    title: string,
    description: string,
    kind: PostType,
    location: string,
    date: string,
    media: Option<MediaFile>,
    poster: Option<MediaFile>,
    error: Option<FormError>)

  /** Why a submission stored nothing. */
  datatype SubmitError = NotSignedIn | FieldsRequired | MissingMedia | RateLimitExceeded | UploadFailed

  /** What the upload service answered for one file. */
  datatype Upload = Uploaded(url: string) | UploadRefused

  /** `MAX_FILE_SIZE_MB * 1024 * 1024`: the largest accepted media size in bytes. */
  function MaxMediaBytes(): (r: nat)
    ensures r == 10485760
  {
    MaxFileSizeMb * 1024 * 1024
  }

  /**
   `handleFileChange`: an oversized media file is refused with an error and the earlier choice
   stays; any other pick is taken and clears the error; picking nothing changes nothing.
   */
  function HandleFileChange(form: AddForm, slot: FileSlot, picked: Option<MediaFile>): (r: AddForm)
    ensures r.title == form.title && r.description == form.description && r.kind == form.kind
    ensures r.location == form.location && r.date == form.date
    ensures picked.None? ==> r == form
    ensures r.media == (if picked.Some? && slot == MediaSlot && picked.value.size <= MaxMediaBytes()
                        then picked else form.media)
    ensures r.poster == (if picked.Some? && slot == PosterSlot then picked else form.poster)
    ensures picked.Some? ==> (r.error == Some(FileTooLarge) <==> slot == MediaSlot && picked.value.size > MaxMediaBytes())
  {
    match picked
    case None => form
    case Some(file) =>
      match slot
      case MediaSlot =>
        if file.size > MaxMediaBytes() then form.(error := Some(FileTooLarge))
        else form.(media := Some(file), error := None)
      case PosterSlot => form.(poster := Some(file), error := None)
  }

  /** `mediaType`: 'video' when the MIME type starts with "video", 'audio' otherwise. */
  function MediaTypeOf(mimeType: string): (r: MediaType)
    ensures r == Video <==> IsPrefix("video", mimeType)
  {
    if IsPrefix("video", mimeType) then Video else Audio
  }

  /** The record `handleSubmit` saves. */
  function NewPost(user: User, form: AddForm, media: MediaFile, mediaUrl: string, posterUrl: Option<string>,
                   freshId: string, now: Stamp): Post
  {
    Post(
      id := freshId,
      userId := user.id,
      userName := user.name,
      kind := form.kind,
      title := form.title,
      description := form.description,
      mediaUrl := mediaUrl,
      mediaType := MediaTypeOf(media.mimeType),
      posterUrl := posterUrl,
      status := Pending,
      rejectionReason := None,
      location := Some(form.location),
      date := if |form.date| == 0 then None else Some(form.date),
      views := 0,
      downloads := 0,
      createdAt := now,
      comments := None)
  }

  /**
   `handleSubmit`, behind the page's sign-in wall and the form's `required` title and
   description: media must be chosen, the monthly quota must not be reached, and both
   uploads must succeed before the new post is saved in front of the store.
   */
  function Submit(viewer: Option<User>, posts: seq<Post>, form: AddForm, freshId: string, now: Stamp,
                  mediaUpload: Upload, posterUpload: Upload): (r: Result<seq<Post>, SubmitError>)
    ensures viewer.None? ==> r == Failure(NotSignedIn)
    ensures viewer.Some? && (|form.title| == 0 || |form.description| == 0) ==> r == Failure(FieldsRequired)
    ensures viewer.Some? && |form.title| > 0 && |form.description| > 0 && form.media.None? ==>
              r == Failure(MissingMedia)
    ensures (viewer.Some? && |form.title| > 0 && |form.description| > 0 && form.media.Some?
             && !CanUserPost(posts, viewer.value.id, now)) ==> r == Failure(RateLimitExceeded)
    ensures mediaUpload.UploadRefused? ==> r.Failure?
    ensures form.poster.Some? && posterUpload.UploadRefused? ==> r.Failure?
    ensures (viewer.Some? && |form.title| > 0 && |form.description| > 0 && form.media.Some?
             && CanUserPost(posts, viewer.value.id, now)
             && (mediaUpload.UploadRefused? || (form.poster.Some? && posterUpload.UploadRefused?)))
            ==> r == Failure(UploadFailed)
    ensures (viewer.Some? && |form.title| > 0 && |form.description| > 0 && form.media.Some?
             && CanUserPost(posts, viewer.value.id, now) && mediaUpload.Uploaded?
             && (form.poster.None? || posterUpload.Uploaded?)) ==> r.Success?
    ensures r.Success? ==>
              && viewer.Some? && form.media.Some? && mediaUpload.Uploaded?
              && CanUserPost(posts, viewer.value.id, now)
              && |r.value| == |posts| + 1
              && r.value[1..] == posts
              && var p := r.value[0];
              && p.id == freshId
              && p.status == Pending
              && p.views == 0 && p.downloads == 0
              && p.rejectionReason.None?
              && p.comments.None?
              && p.userId == viewer.value.id && p.userName == viewer.value.name
              && p.kind == form.kind && p.title == form.title && p.description == form.description
              && p.createdAt == now
              && p.mediaUrl == mediaUpload.url
              && (p.mediaType == Video <==> IsPrefix("video", form.media.value.mimeType))
              && p.posterUrl == (if form.poster.Some? then Some(posterUpload.url) else None)
              && p.location == Some(form.location)
              && (p.date.None? <==> |form.date| == 0)
              && (p.date.Some? ==> p.date.value == form.date)
  {
    if viewer.None? then Failure(NotSignedIn)
    else if |form.title| == 0 || |form.description| == 0 then Failure(FieldsRequired)
    else if form.media.None? then Failure(MissingMedia)
    else if !CanUserPost(posts, viewer.value.id, now) then Failure(RateLimitExceeded)
    else if mediaUpload.UploadRefused? then Failure(UploadFailed)
    else if form.poster.Some? && posterUpload.UploadRefused? then Failure(UploadFailed)
    else
      var posterUrl := if form.poster.Some? then Some(posterUpload.url) else None;
      var post := NewPost(viewer.value, form, form.media.value, mediaUpload.url, posterUrl, freshId, now);
      Success(SavePost(posts, post))
  }

  /** The size limit is inclusive: a file of exactly the limit is taken, one byte more is refused. */
  lemma SizeLimitInclusive(form: AddForm, name: string, mime: string)
    ensures HandleFileChange(form, MediaSlot, Some(MediaFile(name, 10485760, mime))).media
            == Some(MediaFile(name, 10485760, mime))
    ensures HandleFileChange(form, MediaSlot, Some(MediaFile(name, 10485761, mime))).media == form.media
  {
  }

  /** A refused submission never depends on the upload service: the guards run before any upload. */
  lemma GuardsPrecedeUpload(viewer: Option<User>, posts: seq<Post>, form: AddForm, freshId: string, now: Stamp,
                            m1: Upload, p1: Upload, m2: Upload, p2: Upload)
    requires viewer.None? || |form.title| == 0 || |form.description| == 0 || form.media.None?
             || !CanUserPost(posts, viewer.value.id, now)
    ensures Submit(viewer, posts, form, freshId, now, m1, p1) == Submit(viewer, posts, form, freshId, now, m2, p2)
    ensures Submit(viewer, posts, form, freshId, now, m1, p1).Failure?
  {
  }
}

=== FILE: admin_page.dfy ===
/**
 The moderation dashboard (app/admin/page.tsx): the role gate, the pending
 queue, approve/reject/delete of posts, and the user-management actions with
 the controls each viewer is offered. A viewer who is not a moderator is
 redirected before anything loads, modelled as `Failure(Denied)`. Confirmation
 dialogs are taken as accepted.
 */
module AdminPage {
  import opened Results
  import opened Types
  import opened Seqs
  import opened AuthService
  import opened ContentService
  import opened Access

  /** The dashboard turned a viewer away. */
  datatype AccessError = Denied

  /** What the dashboard shows after loading: the moderation queue and every user. */
  datatype Dashboard = Dashboard(queue: seq<Post>, users: seq<User>, identity: IdentityStore)

  /** The four actions of the users table. */
  datatype UserAction = DeleteAccount | RestoreAccount | Promote | Demote

  /** The predicate the queue is filtered with. */
  function InQueue(): Post -> bool {
    (p: Post) => p.status == Pending
  }

  /** The moderation queue: exactly the pending posts, in store order. */
  function PendingQueue(posts: seq<Post>): (r: seq<Post>)
    ensures forall p :: p in r <==> p in posts && p.status == Pending
    ensures IsSubsequence(r, posts)
  {
    Filter(posts, InQueue())
  }

  /** The gate and `loadData`: moderators see the queue and all users; reading the users persists the seed. */
  function LoadDashboard(viewer: Option<User>, identity: IdentityStore, posts: seq<Post>, now: Stamp)
    : (r: Result<Dashboard, AccessError>)
    ensures r.Success? <==> CanModerate(viewer)
    ensures r.Success? ==>
              && r.value.queue == PendingQueue(posts)
              && r.value.users == GetUsers(identity.users, now)
              && r.value.identity == Materialised(identity, now)
  {
    if !CanModerate(viewer) then Failure(Denied)
    else Success(Dashboard(PendingQueue(posts), GetUsers(identity.users, now), Materialised(identity, now)))
  }

  /** Writes `change` of the first queued post with id `id` back to the store; an id not in the queue changes nothing. */
  function Moderate(posts: seq<Post>, id: string, change: Post -> Post): (r: seq<Post>)
    ensures |r| == |posts|
    ensures (forall p :: p in posts && p.status == Pending ==> p.id != id) ==> r == posts
  {
    var queue := PendingQueue(posts);
    match FindFirst(queue, HasId(id))
    case None => posts
    case Some(k) => UpdatePost(posts, change(queue[k]))
  }

  /** `handleApprove`: a queued post is written back with status APPROVED. */
  function Approve(viewer: Option<User>, posts: seq<Post>, id: string): (r: Result<seq<Post>, AccessError>)
    ensures r.Success? <==> CanModerate(viewer)
    ensures r.Success? ==> |r.value| == |posts|
    ensures r.Success? && (forall p :: p in posts && p.status == Pending ==> p.id != id) ==> r.value == posts
  {
    if !CanModerate(viewer) then Failure(Denied)
    else Success(Moderate(posts, id, (p: Post) => p.(status := Approved)))
  }

  /** `handleReject`: a queued post is written back with status REJECTED and the reason exactly as typed. */
  function Reject(viewer: Option<User>, posts: seq<Post>, id: string, reason: string)
    : (r: Result<seq<Post>, AccessError>)
    ensures r.Success? <==> CanModerate(viewer)
    ensures r.Success? ==> |r.value| == |posts|
    ensures r.Success? && (forall p :: p in posts && p.status == Pending ==> p.id != id) ==> r.value == posts
  {
    if !CanModerate(viewer) then Failure(Denied)
    else Success(Moderate(posts, id, (p: Post) => p.(status := Rejected, rejectionReason := Some(reason))))
  }

  /** `handleDeletePost`: a moderator removes every post with that id. */
  function DeleteFromDashboard(viewer: Option<User>, posts: seq<Post>, id: string)
    : (r: Result<seq<Post>, AccessError>)
    ensures r.Success? <==> CanModerate(viewer)
    ensures r.Success? ==> (forall p :: p in r.value ==> p.id != id) && IsSubsequence(r.value, posts)
    ensures r.Success? ==> forall p :: p in posts && p.id != id ==> p in r.value
  {
    if !CanModerate(viewer) then Failure(Denied)
    else Success(DeletePost(posts, id))
  }

  /** The change each user action makes to its target record. */
  function Applied(action: UserAction, u: User): (r: User)
    ensures r.id == u.id && r.email == u.email && r.password == u.password && r.name == u.name
    ensures action == DeleteAccount ==> r == u.(isDeleted := true)
    ensures action == RestoreAccount ==> r == u.(isDeleted := false)
    ensures action == Promote ==> r == u.(role := Admin)
    ensures action == Demote ==> r == u.(role := Regular)
  {
    match action
    case DeleteAccount => u.(isDeleted := true)
    case RestoreAccount => u.(isDeleted := false)
    case Promote => u.(role := Admin)
    case Demote => u.(role := Regular)
  }

  /** `handleUserAction`: dispatches to the identity store's soft-delete, restore and role mutations. */
  function HandleUserAction(viewer: Option<User>, identity: IdentityStore, userId: string, action: UserAction,
                            now: Stamp): (r: Result<IdentityStore, AccessError>)
    ensures r.Success? <==> CanModerate(viewer)
    ensures r.Success? ==>
              var users := GetUsers(identity.users, now);
              && r.value.session == identity.session
              && r.value.users.Some?
              && |r.value.users.value| == |users|
              && forall i :: 0 <= i < |users| ==>
                   r.value.users.value[i] == (if IsFirstWithId(users, userId, i) then Applied(action, users[i]) else users[i])
  {
    if !CanModerate(viewer) then Failure(Denied)
    else
      match action
      case DeleteAccount => Success(DeleteUser(identity, userId, now))
      case RestoreAccount => Success(RestoreUser(identity, userId, now))
      case Promote => Success(UpdateUserRole(identity, userId, Admin, now))
      case Demote => Success(UpdateUserRole(identity, userId, Regular, now))
  }

  /** The buttons a row of the users table offers the viewer. */
  function OfferedActions(viewer: User, target: User): (r: set<UserAction>)
    ensures DeleteAccount in r <==> !target.isDeleted
    ensures RestoreAccount in r <==> target.isDeleted
    ensures Promote in r <==> viewer.role == SuperAdmin && target.role == Regular
    ensures Demote in r <==> viewer.role == SuperAdmin && target.role == Admin
  {
    (if target.isDeleted then {RestoreAccount} else {DeleteAccount})
    + (if viewer.role == SuperAdmin && target.role != SuperAdmin
       then (if target.role == Regular then {Promote} else {Demote})
       else {})
  }

  /** The password cell of a row: present only for a SUPER_ADMIN viewer, and then the stored credential. */
  function PasswordCell(viewer: User, target: User): (r: Option<Option<string>>)
    ensures r.Some? <==> viewer.role == SuperAdmin
    ensures r.Some? ==> r.value == target.password
  {
    if viewer.role == SuperAdmin then Some(target.password) else None
  }
}

=== FILE: admin_properties.dfy ===
/** The moderation state machine and the user-management controls, stated over whole stores. */
module AdminProperties {
  import opened Results
  import opened Types
  import opened Seqs
  import opened AuthService
  import opened ContentService
  import opened Access
  import opened AdminPage

  /** With unique ids, the only post carrying an id is the one at its index. */
  lemma UniqueIdAt(posts: seq<Post>, k: nat, p: Post)
    requires UniqueIds(posts)
    requires k < |posts| && p in posts && p.id == posts[k].id
    ensures p == posts[k]
  {
    var i :| 0 <= i < |posts| && posts[i] == p;
  }

  /** With unique ids, `updatePost` overwrites the post at the updated post's index. */
  lemma UpdateAtUniqueId(posts: seq<Post>, k: nat, updated: Post)
    requires UniqueIds(posts)
    requires k < |posts| && updated.id == posts[k].id
    ensures UpdatePost(posts, updated) == posts[k := updated]
  {
    var r := UpdatePost(posts, updated);
    forall j | 0 <= j < |posts|
      ensures r[j] == posts[k := updated][j]
    {
      if j < k { assert posts[j].id != posts[k].id; }
      if j > k { assert posts[k].id != posts[j].id; assert !IsFirstPost(posts, updated.id, j); }
    }
  }

  /** With unique ids, moderating a pending post rewrites exactly that post. */
  lemma ModeratePendingPost(posts: seq<Post>, k: nat, change: Post -> Post)
    requires UniqueIds(posts)
    requires k < |posts| && posts[k].status == Pending
    requires change(posts[k]).id == posts[k].id
    ensures Moderate(posts, posts[k].id, change) == posts[k := change(posts[k])]
  {
    var id := posts[k].id;
    var queue := PendingQueue(posts);
    assert posts[k] in queue;
    var f := FindFirst(queue, HasId(id));
    assert f.Some?;
    var q := queue[f.value];
    assert q in posts;
    UniqueIdAt(posts, k, q);
    UpdateAtUniqueId(posts, k, change(posts[k]));
  }

  /** With unique ids, a post that is not pending is out of reach of approve and reject. */
  lemma ModerateSettledPost(posts: seq<Post>, k: nat, change: Post -> Post)
    requires UniqueIds(posts)
    requires k < |posts| && posts[k].status != Pending
    ensures Moderate(posts, posts[k].id, change) == posts
  {
    forall p | p in posts && p.status == Pending
      ensures p.id != posts[k].id
    {
      var i :| 0 <= i < |posts| && posts[i] == p;
      if i < k { assert posts[i].id != posts[k].id; }
      if i > k { assert posts[k].id != posts[i].id; }
    }
  }

  /**
   Approve moves a pending post to APPROVED, changing nothing else about it or about
   any other post; on an approved or rejected post it has no effect.
   */
  lemma ApproveOnlyFromPending(viewer: Option<User>, posts: seq<Post>, k: nat)
    requires CanModerate(viewer)
    requires UniqueIds(posts)
    requires k < |posts|
    ensures posts[k].status == Pending ==>
              Approve(viewer, posts, posts[k].id) == Success(posts[k := posts[k].(status := Approved)])
    ensures posts[k].status != Pending ==> Approve(viewer, posts, posts[k].id) == Success(posts)
  {
    var change := (p: Post) => p.(status := Approved);
    if posts[k].status == Pending {
      ModeratePendingPost(posts, k, change);
    } else {
      ModerateSettledPost(posts, k, change);
    }
  }

  /**
   Reject moves a pending post to REJECTED with the reason stored exactly as given (the
   empty string included); on an approved or rejected post it has no effect.
   */
  lemma RejectOnlyFromPending(viewer: Option<User>, posts: seq<Post>, k: nat, reason: string)
    requires CanModerate(viewer)
    requires UniqueIds(posts)
    requires k < |posts|
    ensures posts[k].status == Pending ==>
              Reject(viewer, posts, posts[k].id, reason)
              == Success(posts[k := posts[k].(status := Rejected, rejectionReason := Some(reason))])
    ensures posts[k].status != Pending ==> Reject(viewer, posts, posts[k].id, reason) == Success(posts)
  {
    var change := (p: Post) => p.(status := Rejected, rejectionReason := Some(reason));
    if posts[k].status == Pending {
      ModeratePendingPost(posts, k, change);
    } else {
      ModerateSettledPost(posts, k, change);
    }
  }

  /** Once approved, a post leaves the moderation queue, and approving it again changes nothing. */
  lemma ApprovedLeavesQueue(viewer: Option<User>, posts: seq<Post>, k: nat)
    requires CanModerate(viewer)
    requires UniqueIds(posts)
    requires k < |posts| && posts[k].status == Pending
    ensures var after := Approve(viewer, posts, posts[k].id).value;
      && after[k] !in PendingQueue(after)
      && Approve(viewer, after, posts[k].id) == Success(after)
  {
    ApproveOnlyFromPending(viewer, posts, k);
    var after := Approve(viewer, posts, posts[k].id).value;
    assert forall j :: 0 <= j < |posts| ==> after[j].id == posts[j].id;
    assert UniqueIds(after);
    ApproveOnlyFromPending(viewer, after, k);
  }

  /** Whatever button an ADMIN (not SUPER_ADMIN) viewer presses in the users table, no role changes. */
  lemma AdminViewerKeepsRoles(viewer: User, identity: IdentityStore, target: User, action: UserAction, now: Stamp)
    requires viewer.role == Admin
    requires action in OfferedActions(viewer, target)
    ensures var r := HandleUserAction(Some(viewer), identity, target.id, action, now);
      var users := GetUsers(identity.users, now);
      && r.Success?
      && forall i :: 0 <= i < |users| ==> r.value.users.value[i].role == users[i].role
  {
    assert action == DeleteAccount || action == RestoreAccount;
  }

  /**
   A SUPER_ADMIN row never offers a role change, but it does offer soft-delete to any
   moderator, and pressing it locks that record.
   */
  lemma SuperAdminRowStillDeletable(viewer: User, identity: IdentityStore, target: User, now: Stamp)
    requires IsModeratorRole(viewer.role)
    requires target.role == SuperAdmin && !target.isDeleted
    requires IsFirstWithId(GetUsers(identity.users, now), target.id, 0)
    ensures Promote !in OfferedActions(viewer, target) && Demote !in OfferedActions(viewer, target)
    ensures DeleteAccount in OfferedActions(viewer, target)
    ensures var r := HandleUserAction(Some(viewer), identity, target.id, DeleteAccount, now);
      r.Success? && r.value.users.value[0].isDeleted
  {
  }

  /**
   The handler itself checks only for a moderator, not for SUPER_ADMIN: an ADMIN whose
   request reaches it promotes or demotes a user, although no button offers that to them.
   */
  lemma AdminCanChangeRoleThroughHandler(viewer: User, identity: IdentityStore, k: nat, action: UserAction,
                                         now: Stamp)
    requires viewer.role == Admin
    requires action == Promote || action == Demote
    requires k < |GetUsers(identity.users, now)|
    requires IsFirstWithId(GetUsers(identity.users, now), GetUsers(identity.users, now)[k].id, k)
    ensures action !in OfferedActions(viewer, GetUsers(identity.users, now)[k])
    ensures var r := HandleUserAction(Some(viewer), identity, GetUsers(identity.users, now)[k].id, action, now);
      && r.Success?
      && r.value.users.value[k].role == (if action == Promote then Admin else Regular)
  {
  }
}

=== FILE: auth_properties.dfy ===
/** Properties relating several identity-store operations: seeding, registration, login and soft-delete. */
module AuthProperties {
  import opened Results
  import opened Types
  import opened Seqs
  import opened AuthService

  /** A fresh store seeds exactly one user, and that user can sign in with the bootstrap credentials. */
  lemma SeedCanSignIn(session: Option<User>, now: Stamp)
    ensures WellFormed(GetUsers(None, now))
    ensures var r := Login(IdentityStore(None, session), InitialSuperAdminEmail, InitialSuperAdminPass, now);
      && r.outcome.Success?
      && r.outcome.value.id == SuperAdminId
      && r.outcome.value.role == SuperAdmin
      && r.store.users == Some([SeedUser(now)])
  {
    FindFirstIs(GetUsers(None, now), Credentials(InitialSuperAdminEmail, InitialSuperAdminPass), 0);
  }

  /** Registration keeps ids and emails unique, whether it succeeds or not, provided the new id is fresh. */
  lemma RegisterKeepsWellFormed(st: IdentityStore, email: string, password: string, name: Option<string>,
                                freshId: string, now: Stamp)
    requires WellFormed(GetUsers(st.users, now))
    requires !IdTaken(GetUsers(st.users, now), freshId)
    ensures WellFormed(Register(st, email, password, name, freshId, now).store.users.value)
  {
    var users := GetUsers(st.users, now);
    var r := Register(st, email, password, name, freshId, now);
    if r.outcome.Success? {
      var users' := r.store.users.value;
      assert users' == users + [r.outcome.value];
      forall i, j | 0 <= i < j < |users'|
        ensures users'[i].id != users'[j].id && users'[i].email != users'[j].email
      {
        if j == |users| {
          assert users'[i] == users[i];
        }
      }
    }
  }

  /** Once an email is registered, registering it again fails whatever the password, name or id, and changes nothing. */
  lemma {:induction false} RegisterTwiceFails(st: IdentityStore, email: string, p1: string, p2: string,
                                              n1: Option<string>, n2: Option<string>, id1: string, id2: string,
                                              now: Stamp)
    requires Register(st, email, p1, n1, id1, now).outcome.Success?
    ensures var st' := Register(st, email, p1, n1, id1, now).store;
      && Register(st', email, p2, n2, id2, now).outcome == Failure(DuplicateEmail)
      && Register(st', email, p2, n2, id2, now).store == st'
  {
    var st' := Register(st, email, p1, n1, id1, now).store;
    var users' := st'.users.value;
    assert users'[|users'| - 1].email == email;
  }

  /** A freshly registered account can sign in with the password it was registered with. */
  lemma RegisterThenLogin(st: IdentityStore, email: string, password: string, name: Option<string>,
                          freshId: string, now: Stamp)
    requires Register(st, email, password, name, freshId, now).outcome.Success?
    ensures var r := Register(st, email, password, name, freshId, now);
      var l := Login(r.store, email, password, now);
      l.outcome == Success(r.outcome.value) && l.store == r.store
  {
    var users := GetUsers(st.users, now);
    var r := Register(st, email, password, name, freshId, now);
    var users' := r.store.users.value;
    forall j | 0 <= j < |users|
      ensures !Credentials(email, password)(users'[j])
    {
      assert users'[j] == users[j];
    }
    FindFirstIs(users', Credentials(email, password), |users|);
  }

  /** Credentials are checked before the deleted flag: a deleted account with a wrong password is reported as invalid. */
  lemma WrongPasswordBeatsDisabled(st: IdentityStore, k: nat, password: string, now: Stamp)
    requires WellFormed(GetUsers(st.users, now))
    requires k < |GetUsers(st.users, now)|
    requires GetUsers(st.users, now)[k].isDeleted
    requires GetUsers(st.users, now)[k].password != Some(password)
    ensures Login(st, GetUsers(st.users, now)[k].email, password, now).outcome == Failure(InvalidCredentials)
  {
    var users := GetUsers(st.users, now);
    forall i | 0 <= i < |users|
      ensures !(users[i].email == users[k].email && users[i].password == Some(password))
    {
      if i < k {
        assert users[i].email != users[k].email;
      } else if i > k {
        assert users[k].email != users[i].email;
      }
    }
  }

  /** The credential search finds user `k` when ids and emails are unique and `k` holds the password. */
  lemma LoginFinds(users: seq<User>, k: nat, password: string)
    requires WellFormed(users)
    requires k < |users| && users[k].password == Some(password)
    ensures FindFirst(users, Credentials(users[k].email, password)) == Some(k)
  {
    forall j | 0 <= j < k
      ensures !Credentials(users[k].email, password)(users[j])
    {
      assert users[j].email != users[k].email;
    }
    FindFirstIs(users, Credentials(users[k].email, password), k);
  }

  /** Changing roles or the deleted flag never touches ids or emails, so uniqueness survives. */
  lemma ModifyKeepsWellFormed(st: IdentityStore, userId: string, change: User -> User, now: Stamp)
    requires WellFormed(GetUsers(st.users, now))
    requires forall u: User :: change(u).id == u.id && change(u).email == u.email
    ensures WellFormed(ModifyUser(st, userId, change, now).users.value)
  {
    var users := GetUsers(st.users, now);
    var users' := ModifyUser(st, userId, change, now).users.value;
    assert forall i :: 0 <= i < |users| ==> users'[i].id == users[i].id && users'[i].email == users[i].email;
  }

  /** Soft-deleting a user locks the account out; restoring it lets the same credentials in again. */
  lemma DeleteThenRestoreLogin(st: IdentityStore, k: nat, password: string, now: Stamp)
    requires WellFormed(GetUsers(st.users, now))
    requires k < |GetUsers(st.users, now)|
    requires GetUsers(st.users, now)[k].password == Some(password)
    ensures var u := GetUsers(st.users, now)[k];
      var deleted := DeleteUser(st, u.id, now);
      && Login(deleted, u.email, password, now).outcome == Failure(AccountDisabled)
      && Login(RestoreUser(deleted, u.id, now), u.email, password, now).outcome.Success?
  {
    var users := GetUsers(st.users, now);
    var u := users[k];
    assert IsFirstWithId(users, u.id, k) by {
      forall j | 0 <= j < k ensures users[j].id != u.id {
        assert users[j].id != users[k].id;
      }
    }
    ModifyKeepsWellFormed(st, u.id, (v: User) => v.(isDeleted := true), now);
    var deleted := DeleteUser(st, u.id, now);
    var users1 := deleted.users.value;
    assert users1[k] == u.(isDeleted := true);
    LoginFinds(users1, k, password);
    assert IsFirstWithId(users1, u.id, k) by {
      forall j | 0 <= j < k ensures users1[j].id != u.id {
        assert users1[j] == users[j];
      }
    }
    ModifyKeepsWellFormed(deleted, u.id, (v: User) => v.(isDeleted := false), now);
    var restored := RestoreUser(deleted, u.id, now);
    var users2 := restored.users.value;
    assert users2[k] == u.(isDeleted := false);
    LoginFinds(users2, k, password);
  }

  /** Restoring an account that was active before its deletion gives back exactly the users that were read. */
  lemma DeleteRestoreRoundTrip(st: IdentityStore, userId: string, now: Stamp)
    requires forall i :: IsFirstWithId(GetUsers(st.users, now), userId, i) ==> !GetUsers(st.users, now)[i].isDeleted
    ensures RestoreUser(DeleteUser(st, userId, now), userId, now) == Materialised(st, now)
  {
    var users := GetUsers(st.users, now);
    var deleted := DeleteUser(st, userId, now);
    var users1 := deleted.users.value;
    var restored := RestoreUser(deleted, userId, now);
    var users2 := restored.users.value;
    assert GetUsers(deleted.users, now) == users1;
    forall i | 0 <= i < |users|
      ensures users2[i] == users[i]
    {
      SameIdsSameFirst(users, users1, userId, i);
      if IsFirstWithId(users, userId, i) {
        assert users1[i] == users[i].(isDeleted := true);
        assert users2[i] == users1[i].(isDeleted := false);
      } else {
        assert users1[i] == users[i];
        assert users2[i] == users1[i];
      }
    }
    assert users2 == users;
  }

  /** Two user lists with the same ids position by position agree on which index is the first with a given id. */
  lemma SameIdsSameFirst(a: seq<User>, b: seq<User>, id: string, i: int)
    requires |a| == |b|
    requires forall j :: 0 <= j < |a| ==> a[j].id == b[j].id
    ensures IsFirstWithId(a, id, i) <==> IsFirstWithId(b, id, i)
  {
  }

  /**
   `getCurrentUser` reports the user the last register or login signed in, nothing after
   logout, and the snapshot taken at sign-in even after an admin changes that record.
   */
  lemma CurrentUserFollowsSignIn(st: IdentityStore, email: string, password: string, name: Option<string>,
                                 freshId: string, userId: string, role: UserRole, now: Stamp)
    ensures CurrentUser(Logout(st)).None?
    ensures var r := Register(st, email, password, name, freshId, now);
      CurrentUser(r.store) == (if r.outcome.Success? then Some(r.outcome.value) else CurrentUser(st))
    ensures var l := Login(st, email, password, now);
      CurrentUser(l.store) == (if l.outcome.Success? then Some(l.outcome.value) else CurrentUser(st))
    ensures CurrentUser(UpdateUserRole(st, userId, role, now)) == CurrentUser(st)
    ensures CurrentUser(DeleteUser(st, userId, now)) == CurrentUser(st)
  {
  }
}

=== FILE: auth_service.dfy ===
/**
 The identity store and the session holder (services/authService.ts).
 The users blob is absent until the first read, which seeds and persists the
 bootstrap super-administrator; the session is a stored copy of one user record.
 Clock readings and freshly generated ids are parameters.
 */
module AuthService {
  import opened Results
  import opened Types
  import opened Seqs

  /** The two persisted keys: the users blob (None before the first read) and the current-session snapshot. */
  datatype IdentityStore = IdentityStore(users: Option<seq<User>>, session: Option<User>)

  /** The ways registration and `login` reject. */
  datatype AuthError = PasswordMismatch | DuplicateEmail | InvalidCredentials | AccountDisabled

  /** An operation's effect on the store together with its outcome; a rejection can still persist the seed. */
  datatype AuthReply = AuthReply(store: IdentityStore, outcome: Result<User, AuthError>)

  /** The bootstrap super-administrator written on the first read of an empty store. */
  function SeedUser(now: Stamp): User {
    User(SuperAdminId, InitialSuperAdminEmail, None, Some(SuperAdminName), SuperAdmin, false,
         Some(InitialSuperAdminPass), now)
  }

  /** `getUsers`: the stored users, or the seeded super-administrator alone when nothing is stored yet. */
  function GetUsers(stored: Option<seq<User>>, now: Stamp): (r: seq<User>)
    ensures stored.Some? ==> r == stored.value
    ensures stored.None? ==>
              && |r| == 1
              && r[0].id == SuperAdminId
              && r[0].role == SuperAdmin
              && !r[0].isDeleted
              && r[0].email == InitialSuperAdminEmail
              && r[0].password == Some(InitialSuperAdminPass)
  {
    match stored
    case None => [SeedUser(now)]
    case Some(users) => users
  }

  /** The store after `getUsers` has run: the seed, if created, is persisted; nothing else changes. */
  function Materialised(st: IdentityStore, now: Stamp): IdentityStore {
    st.(users := Some(GetUsers(st.users, now)))
  }

  /** No two users share an id or an email. */
  predicate WellFormed(users: seq<User>) {
    forall i, j :: 0 <= i < j < |users| ==> users[i].id != users[j].id && users[i].email != users[j].email
  }

  /** Some user, deleted or not, is registered under `email`. */
  predicate EmailTaken(users: seq<User>, email: string) {
    exists i :: 0 <= i < |users| && users[i].email == email
  }

  /** Some user carries the id `id`. */
  predicate IdTaken(users: seq<User>, id: string) {
    exists i :: 0 <= i < |users| && users[i].id == id
  }

  /** `name || email.split('@')[0]`: an absent or empty name falls back to the email's local part. */
  function RegisteredName(name: Option<string>, email: string): string {
    if name.Some? && |name.value| > 0 then name.value else BeforeFirst(email, '@')
  }

  /** `register`: refuses a taken email; otherwise appends a fresh active USER and signs it in. */
  function Register(st: IdentityStore, email: string, password: string, name: Option<string>,
                    freshId: string, now: Stamp): (r: AuthReply)
    ensures var users := GetUsers(st.users, now);
      && (r.outcome == Failure(DuplicateEmail) <==> EmailTaken(users, email))
      && (r.outcome.Failure? ==> r.outcome.error == DuplicateEmail && r.store == Materialised(st, now))
      && (r.outcome.Success? ==>
            var u := r.outcome.value;
            && r.store.users == Some(users + [u])
            && r.store.session == Some(u)
            && u.id == freshId
            && u.email == email
            && u.password == Some(password)
            && u.name == Some(RegisteredName(name, email))
            && u.role == Regular
            && !u.isDeleted
            && u.phone.None?
            && u.createdAt == now)
  {
    var users := GetUsers(st.users, now);
    if EmailTaken(users, email) then
      AuthReply(Materialised(st, now), Failure(DuplicateEmail))
    else
      var u := User(freshId, email, None, Some(RegisteredName(name, email)), Regular, false, Some(password), now);
      AuthReply(IdentityStore(Some(users + [u]), Some(u)), Success(u))
  }

  /**
   The registration form: a password that differs from its confirmation is refused before
   the store is read; otherwise the request goes to `register`.
   */
  function RegisterForm(st: IdentityStore, email: string, password: string, confirmation: string,
                        name: Option<string>, freshId: string, now: Stamp): (r: AuthReply)
    ensures password != confirmation ==> r == AuthReply(st, Failure(PasswordMismatch))
    ensures r.outcome != Failure(PasswordMismatch) ==> r == Register(st, email, password, name, freshId, now)
    ensures r.outcome.Success? ==> password == confirmation && r.outcome.value.password == Some(confirmation)
  {
    if password != confirmation then AuthReply(st, Failure(PasswordMismatch))
    else Register(st, email, password, name, freshId, now)
  }

  /** The predicate `login` searches with: exact email and exact password. */
  function Credentials(email: string, password: string): User -> bool {
    (u: User) => u.email == email && u.password == Some(password)
  }

  /** `login`: the first user matching both credentials; a deleted match is refused; otherwise it becomes the session. */
  function Login(st: IdentityStore, email: string, password: string, now: Stamp): (r: AuthReply)
    ensures var users := GetUsers(st.users, now);
      && (r.outcome == Failure(InvalidCredentials) <==>
            forall i :: 0 <= i < |users| ==> !(users[i].email == email && users[i].password == Some(password)))
      && (r.outcome.Failure? ==> (r.outcome.error == InvalidCredentials || r.outcome.error == AccountDisabled) && r.store == Materialised(st, now))
      && (r.outcome == Failure(AccountDisabled) ==>
            exists i :: 0 <= i < |users| && users[i].email == email && users[i].password == Some(password)
                                         && users[i].isDeleted)
      && (r.outcome.Success? ==>
            var u := r.outcome.value;
            && u in users
            && u.email == email
            && u.password == Some(password)
            && !u.isDeleted
            && r.store == Materialised(st, now).(session := Some(u)))
    ensures var users := GetUsers(st.users, now);
      forall k :: 0 <= k < |users| && Credentials(email, password)(users[k])
                  && (forall j :: 0 <= j < k ==> !Credentials(email, password)(users[j])) ==>
        && (r.outcome == Failure(AccountDisabled) <==> users[k].isDeleted)
        && (r.outcome.Success? <==> !users[k].isDeleted)
        && (r.outcome.Success? ==> r.outcome.value == users[k])
  {
    var users := GetUsers(st.users, now);
    match FindFirst(users, Credentials(email, password))
    case None => AuthReply(Materialised(st, now), Failure(InvalidCredentials))
    case Some(k) =>
      if users[k].isDeleted then AuthReply(Materialised(st, now), Failure(AccountDisabled))
      else AuthReply(Materialised(st, now).(session := Some(users[k])), Success(users[k]))
  }

  /** `logout`: drops the session whatever it held; the users are untouched. */
  function Logout(st: IdentityStore): (r: IdentityStore)
    ensures r.session.None?
    ensures r.users == st.users
  {
    st.(session := None)
  }

  /** `getCurrentUser`: the stored session snapshot. */
  function CurrentUser(st: IdentityStore): Option<User> {
    st.session
  }

  /** Index `i` holds the first user with id `id` (the one `findIndex` locates). */
  predicate IsFirstWithId(users: seq<User>, id: string, i: int) {
    0 <= i < |users| && users[i].id == id && forall j :: 0 <= j < i ==> users[j].id != id
  }

  /** The predicate `findIndex` searches with. */
  function HasUserId(id: string): User -> bool {
    (u: User) => u.id == id
  }

  /** Applies `change` to the first user with id `userId`; a missing id leaves the users as read. */
  function ModifyUser(st: IdentityStore, userId: string, change: User -> User, now: Stamp): (r: IdentityStore)
    ensures var users := GetUsers(st.users, now);
      && r.session == st.session
      && r.users.Some?
      && |r.users.value| == |users|
      && (forall i :: 0 <= i < |users| ==>
            r.users.value[i] == (if IsFirstWithId(users, userId, i) then change(users[i]) else users[i]))
  {
    var users := GetUsers(st.users, now);
    match FindFirst(users, HasUserId(userId))
    case None => st.(users := Some(users))
    case Some(k) => st.(users := Some(users[k := change(users[k])]))
  }

  /** `updateUserRole`: only the role of the first user with that id changes. */
  function UpdateUserRole(st: IdentityStore, userId: string, role: UserRole, now: Stamp): (r: IdentityStore)
    ensures var users := GetUsers(st.users, now);
      && r.session == st.session
      && r.users.Some?
      && |r.users.value| == |users|
      && (!IdTaken(users, userId) ==> r.users.value == users)
      && (forall i :: 0 <= i < |users| ==>
            r.users.value[i] == (if IsFirstWithId(users, userId, i) then users[i].(role := role) else users[i]))
  {
    ModifyUser(st, userId, (u: User) => u.(role := role), now)
  }

  /** `deleteUser`: soft-deletes the first user with that id; nothing else changes. */
  function DeleteUser(st: IdentityStore, userId: string, now: Stamp): (r: IdentityStore)
    ensures var users := GetUsers(st.users, now);
      && r.session == st.session
      && r.users.Some?
      && |r.users.value| == |users|
      && (!IdTaken(users, userId) ==> r.users.value == users)
      && (forall i :: 0 <= i < |users| ==>
            r.users.value[i] == (if IsFirstWithId(users, userId, i) then users[i].(isDeleted := true) else users[i]))
  {
    ModifyUser(st, userId, (u: User) => u.(isDeleted := true), now)
  }

  /** `restoreUser`: clears the deleted flag of the first user with that id; nothing else changes. */
  function RestoreUser(st: IdentityStore, userId: string, now: Stamp): (r: IdentityStore)
    ensures var users := GetUsers(st.users, now);
      && r.session == st.session
      && r.users.Some?
      && |r.users.value| == |users|
      && (!IdTaken(users, userId) ==> r.users.value == users)
      && (forall i :: 0 <= i < |users| ==>
            r.users.value[i] == (if IsFirstWithId(users, userId, i) then users[i].(isDeleted := false) else users[i]))
  {
    ModifyUser(st, userId, (u: User) => u.(isDeleted := false), now)
  }
}

=== FILE: content_properties.dfy ===
/** Properties relating content-store operations and the monthly posting limit. */
module ContentProperties {
  import opened Types
  import opened Seqs
  import opened ContentService

  /** Deleting an id that no post carries leaves the store as it is. */
  lemma DeleteMissingIsNoop(posts: seq<Post>, id: string)
    requires !PostIdTaken(posts, id)
    ensures DeletePost(posts, id) == posts
  {
    FilterKeepsAll(posts, LacksId(id));
  }

  /** Saving a post with a fresh id and then deleting that id gives back the original store. */
  lemma DeleteUndoesSave(posts: seq<Post>, post: Post)
    requires !PostIdTaken(posts, post.id)
    ensures DeletePost(SavePost(posts, post), post.id) == posts
  {
    assert SavePost(posts, post)[1..] == posts;
    DeleteMissingIsNoop(posts, post.id);
  }

  /** Delete removes every copy of the id's posts and keeps every other post as often as it occurred. */
  lemma DeleteKeepsCopies(posts: seq<Post>, id: string, p: Post)
    ensures multiset(DeletePost(posts, id))[p] == if p.id != id then multiset(posts)[p] else 0
  {
    FilterCounts(posts, LacksId(id), p);
  }

  /** Deleting twice is the same as deleting once. */
  lemma DeleteIdempotent(posts: seq<Post>, id: string)
    ensures DeletePost(DeletePost(posts, id), id) == DeletePost(posts, id)
  {
    var r := DeletePost(posts, id);
    assert !PostIdTaken(r, id) by {
      assert forall i :: 0 <= i < |r| ==> r[i] in r;
    }
    DeleteMissingIsNoop(r, id);
  }

  /** Writing the same post back twice is the same as writing it once. */
  lemma UpdateIdempotent(posts: seq<Post>, updated: Post)
    ensures UpdatePost(UpdatePost(posts, updated), updated) == UpdatePost(posts, updated)
  {
    var r := UpdatePost(posts, updated);
    var r2 := UpdatePost(r, updated);
    assert forall j :: 0 <= j < |posts| ==> r[j].id == posts[j].id;
    forall i | 0 <= i < |posts|
      ensures r2[i] == r[i]
    {
      assert IsFirstPost(r, updated.id, i) <==> IsFirstPost(posts, updated.id, i);
    }
  }

  /** The monthly count adds up over the two halves of a store. */
  lemma CountSplits(a: seq<Post>, b: seq<Post>, userId: string, now: Stamp)
    ensures PostsThisMonth(a + b, userId, now) == PostsThisMonth(a, userId, now) + PostsThisMonth(b, userId, now)
  {
    FilterConcat(a, b, CountedThisMonth(userId, now));
  }

  /** A post by another user, or from another month or year, does not change the count wherever it sits. */
  lemma UncountedPostIgnored(a: seq<Post>, q: Post, b: seq<Post>, userId: string, now: Stamp)
    requires q.userId != userId || !SameMonth(q.createdAt, now)
    ensures PostsThisMonth(a + [q] + b, userId, now) == PostsThisMonth(a + b, userId, now)
    ensures CanUserPost(a + [q] + b, userId, now) == CanUserPost(a + b, userId, now)
  {
    CountSplits(a + [q], b, userId, now);
    CountSplits(a, [q], userId, now);
    CountSplits(a, b, userId, now);
  }

  /** Saving one of the user's posts from the current month raises the count by exactly one. */
  lemma SaveCountedRaisesCount(posts: seq<Post>, q: Post, userId: string, now: Stamp)
    requires q.userId == userId && SameMonth(q.createdAt, now)
    ensures PostsThisMonth(SavePost(posts, q), userId, now) == PostsThisMonth(posts, userId, now) + 1
  {
    CountSplits([q], posts, userId, now);
  }

  /**
   The quota is two per calendar month: from no counted posts, one save still allows
   posting, a second blocks it, and a third post from another month changes nothing.
   */
  lemma QuotaIsTwo(posts: seq<Post>, q1: Post, q2: Post, other: Post, userId: string, now: Stamp)
    requires PostsThisMonth(posts, userId, now) == 0
    requires q1.userId == userId && SameMonth(q1.createdAt, now)
    requires q2.userId == userId && SameMonth(q2.createdAt, now)
    requires !SameMonth(other.createdAt, now)
    ensures CanUserPost(posts, userId, now)
    ensures CanUserPost(SavePost(posts, q1), userId, now)
    ensures !CanUserPost(SavePost(SavePost(posts, q1), q2), userId, now)
    ensures !CanUserPost(SavePost(SavePost(SavePost(posts, q1), q2), other), userId, now)
    ensures PostsThisMonth(SavePost(SavePost(SavePost(posts, q1), q2), other), userId, now) == 2
  {
    SaveCountedRaisesCount(posts, q1, userId, now);
    SaveCountedRaisesCount(SavePost(posts, q1), q2, userId, now);
    UncountedPostIgnored([], other, SavePost(SavePost(posts, q1), q2), userId, now);
    assert [] + [other] + SavePost(SavePost(posts, q1), q2) == SavePost(SavePost(SavePost(posts, q1), q2), other);
    assert [] + SavePost(SavePost(posts, q1), q2) == SavePost(SavePost(posts, q1), q2);
  }

  /** A comment is appended at the end: earlier comments stay in order and the count rises by one. */
  lemma CommentAppended(posts: seq<Post>, k: nat, c: Comment)
    requires k < |posts|
    requires UniqueIds(posts)
    ensures var r := AddComment(posts, posts[k].id, c);
      && CommentsOf(r[k]) == CommentsOf(posts[k]) + [c]
      && |CommentsOf(r[k])| == |CommentsOf(posts[k])| + 1
      && CommentsOf(r[k])[..|CommentsOf(posts[k])|] == CommentsOf(posts[k])
      && r[k].views == posts[k].views && r[k].status == posts[k].status
      && (forall i :: 0 <= i < |posts| && i != k ==> r[i] == posts[i])
  {
    assert IsFirstPost(posts, posts[k].id, k);
    var r := AddComment(posts, posts[k].id, c);
    forall i | 0 <= i < |posts| && i != k
      ensures r[i] == posts[i]
    {
      if i < k {
        assert posts[i].id != posts[k].id;
      } else {
        assert posts[k].id != posts[i].id;
        assert !IsFirstPost(posts, posts[k].id, i);
      }
    }
  }
}

=== FILE: content_service.dfy ===
/**
 The content store and the monthly posting limit (services/contentService.ts).
 The store is the list of posts, newest first; "now" is a parameter.
 */
module ContentService {
  import opened Results
  import opened Types
  import opened Seqs

  /** The predicate `find`/`findIndex` search with. */
  function HasId(id: string): Post -> bool {
    (p: Post) => p.id == id
  }

  /** The predicate `deletePost` keeps posts with. */
  function LacksId(id: string): Post -> bool {
    (p: Post) => p.id != id
  }

  /** No two posts share an id. */
  predicate UniqueIds(posts: seq<Post>) {
    forall i, j :: 0 <= i < j < |posts| ==> posts[i].id != posts[j].id
  }

  /** Index `i` holds the first post with id `id`. */
  predicate IsFirstPost(posts: seq<Post>, id: string, i: int) {
    0 <= i < |posts| && posts[i].id == id && forall j :: 0 <= j < i ==> posts[j].id != id
  }

  /** Some post carries the id `id`. */
  predicate PostIdTaken(posts: seq<Post>, id: string) {
    exists i :: 0 <= i < |posts| && posts[i].id == id
  }

  /** `getPosts`: an absent posts blob reads as the empty store. */
  function GetPosts(stored: Option<seq<Post>>): (r: seq<Post>)
    ensures stored.None? ==> r == []
    ensures stored.Some? ==> r == stored.value
  {
    stored.GetOr([])
  }

  /** `savePost`: the new post goes in front; the old posts follow in their old order. */
  function SavePost(posts: seq<Post>, post: Post): (r: seq<Post>)
    ensures |r| == |posts| + 1
    ensures r[0] == post
    ensures r[1..] == posts
  {
    [post] + posts
  }

  /** Replaces the first post with id `id` by `change` of it; a missing id leaves the store as it is. */
  function ModifyPost(posts: seq<Post>, id: string, change: Post -> Post): (r: seq<Post>)
    ensures |r| == |posts|
    ensures forall i :: 0 <= i < |posts| ==> r[i] == (if IsFirstPost(posts, id, i) then change(posts[i]) else posts[i])
  {
    match FindFirst(posts, HasId(id))
    case None => posts
    case Some(k) => posts[k := change(posts[k])]
  }

  /** `updatePost`: the first post with the same id is replaced in place; with no match nothing changes. */
  function UpdatePost(posts: seq<Post>, updated: Post): (r: seq<Post>)
    ensures |r| == |posts|
    ensures !PostIdTaken(posts, updated.id) ==> r == posts
    ensures forall i :: 0 <= i < |posts| ==> r[i] == (if IsFirstPost(posts, updated.id, i) then updated else posts[i])
  {
    ModifyPost(posts, updated.id, (p: Post) => updated)
  }

  /** `deletePost`: every post with that id goes; the rest keep their order. */
  function DeletePost(posts: seq<Post>, id: string): (r: seq<Post>)
    ensures forall p :: p in r ==> p.id != id
    ensures forall p :: p in posts && p.id != id ==> p in r
    ensures IsSubsequence(r, posts)
  {
    Filter(posts, LacksId(id))
  }

  /** The posts `canUserPost` counts: those of `userId` created in the calendar month of `now`. */
  function CountedThisMonth(userId: string, now: Stamp): Post -> bool {
    (p: Post) => p.userId == userId && SameMonth(p.createdAt, now)
  }

  /** How many posts of `userId`, of any status, were created in the month of `now`. */
  function PostsThisMonth(posts: seq<Post>, userId: string, now: Stamp): (r: nat)
    ensures r <= |posts|
    ensures r == 0 <==> forall p :: p in posts ==> !(p.userId == userId && SameMonth(p.createdAt, now))
  {
    var counted := Filter(posts, CountedThisMonth(userId, now));
    assert |counted| > 0 ==> counted[0] in counted;
    |counted|
  }

  /** `canUserPost`: the user is still below the monthly quota. */
  function CanUserPost(posts: seq<Post>, userId: string, now: Stamp): (r: bool)
    ensures r <==> PostsThisMonth(posts, userId, now) < 2
    ensures (forall p :: p in posts ==> !(p.userId == userId && SameMonth(p.createdAt, now))) ==> r
    ensures |posts| < 2 ==> r
  {
    PostsThisMonth(posts, userId, now) < MaxPostsPerMonth
  }

  /** The comments of a post, an absent list read as empty. */
  function CommentsOf(p: Post): seq<Comment> {
    p.comments.GetOr([])
  }

  /** `addComment`: the comment is appended to the first post with that id, creating its list if missing. */
  function AddComment(posts: seq<Post>, postId: string, c: Comment): (r: seq<Post>)
    ensures |r| == |posts|
    ensures !PostIdTaken(posts, postId) ==> r == posts
    ensures forall i :: 0 <= i < |posts| ==>
              r[i] == (if IsFirstPost(posts, postId, i)
                       then posts[i].(comments := Some(CommentsOf(posts[i]) + [c]))
                       else posts[i])
  {
    ModifyPost(posts, postId, (p: Post) => p.(comments := Some(CommentsOf(p) + [c])))
  }

  /** `incrementView`: the first post with that id gets one more view; nothing else changes. */
  function IncrementView(posts: seq<Post>, postId: string): (r: seq<Post>)
    ensures |r| == |posts|
    ensures !PostIdTaken(posts, postId) ==> r == posts
    ensures forall i :: 0 <= i < |posts| ==>
              r[i] == (if IsFirstPost(posts, postId, i) then posts[i].(views := posts[i].views + 1) else posts[i])
  {
    ModifyPost(posts, postId, (p: Post) => p.(views := p.views + 1))
  }
}

=== FILE: listings.dfy ===
/**
 The two public archives (app/speeches/page.tsx and app/manqabat/page.tsx):
 approved posts of one category, a substring search over them, and the
 moderator-only delete. The speeches page may add matches from an external
 ranking service; its answer is a parameter.
 */
module Listings {
  import opened Results
  import opened Types
  import opened Seqs
  import opened ContentService
  import opened Access

  /** The predicate an archive is filtered with. */
  function Listed(kind: PostType): Post -> bool {
    (p: Post) => p.kind == kind && p.status == Approved
  }

  /** An archive: exactly the approved posts of one category, in store order. */
  function Listing(posts: seq<Post>, kind: PostType): (r: seq<Post>)
    ensures forall p :: p in r <==> p in posts && p.kind == kind && p.status == Approved
    ensures IsSubsequence(r, posts)
  {
    Filter(posts, Listed(kind))
  }

  /** The basic search test: the untrimmed query occurs in the title or the description. */
  function Matches(query: string): Post -> bool {
    (p: Post) => Contains(p.title, query) || Contains(p.description, query)
  }

  /** The basic search: the listed posts the query matches, in listing order. */
  function BasicMatches(listed: seq<Post>, query: string): seq<Post> {
    Filter(listed, Matches(query))
  }

  /** What the ranking service answered: nothing configured, a failure, or a list of relevant titles. */
  datatype Ranking = RankingUnavailable | RankingFailed | RankedTitles(titles: seq<string>)

  /** Listed posts the ranking names that the basic search did not already find. */
  function RankedOnly(query: string, titles: seq<string>): Post -> bool {
    (p: Post) => p.title in titles && !Matches(query)(p)
  }

  /**
   The speeches `handleSearch`: a blank query restores the listing; otherwise the basic
   matches, followed, when the ranking succeeded, by the ranked posts not already among them.
   */
  function SearchSpeeches(listed: seq<Post>, query: string, ranking: Ranking): (r: seq<Post>)
    ensures IsBlank(query) ==> r == listed
    ensures forall p :: p in r ==> p in listed
    ensures !IsBlank(query) ==> forall p :: p in listed && Matches(query)(p) ==> p in r
    ensures !IsBlank(query) && !ranking.RankedTitles? ==> r == BasicMatches(listed, query)
    ensures !IsBlank(query) && ranking.RankedTitles? ==>
              && |BasicMatches(listed, query)| <= |r|
              && r[..|BasicMatches(listed, query)|] == BasicMatches(listed, query)
              && (forall p :: p in r <==> p in listed && (Matches(query)(p) || p.title in ranking.titles))
              && IsSubsequence(r[|BasicMatches(listed, query)|..], listed)
              && (forall p :: p in r[|BasicMatches(listed, query)|..] ==> !Matches(query)(p))
  {
    if IsBlank(query) then listed
    else
      var basic := BasicMatches(listed, query);
      match ranking
      case RankedTitles(titles) =>
        var extra := Filter(listed, RankedOnly(query, titles));
        assert (basic + extra)[..|basic|] == basic;
        assert (basic + extra)[|basic|..] == extra;
        basic + extra
      case _ => basic
  }

  /** The manqabat `handleSearch`: a blank query restores the listing; otherwise only the basic matches. */
  function SearchManqabat(listed: seq<Post>, query: string): (r: seq<Post>)
    ensures IsBlank(query) ==> r == listed
    ensures IsSubsequence(r, listed)
    ensures !IsBlank(query) ==>
              forall p :: p in r <==> p in listed && (Contains(p.title, query) || Contains(p.description, query))
  {
    if IsBlank(query) then
      SubsequenceReflexive(listed);
      listed
    else BasicMatches(listed, query)
  }

  /** An archive page: the store, the archive it loaded and the posts on display. */
  datatype ArchivePage = ArchivePage(store: seq<Post>, listed: seq<Post>, shown: seq<Post>)

  /** The page as first loaded: the archive, all of it shown. */
  function OpenArchive(posts: seq<Post>, kind: PostType): (r: ArchivePage)
    ensures r.store == posts && r.shown == r.listed
    ensures r.listed == Listing(posts, kind)
    ensures IsSubsequence(r.shown, posts)
    ensures forall p :: p in r.shown <==> p in posts && p.kind == kind && p.status == Approved
  {
    var listed := Listing(posts, kind);
    ArchivePage(posts, listed, listed)
  }

  /** `handleDelete` on either archive: a moderator deletes and the archive is reloaded; anyone else changes nothing. */
  function DeleteFromArchive(viewer: Option<User>, page: ArchivePage, kind: PostType, id: string): (r: ArchivePage)
    ensures !CanModerate(viewer) ==> r == page
    ensures CanModerate(viewer) ==>
              && (forall p :: p in r.store ==> p.id != id)
              && (forall p :: p in page.store && p.id != id ==> p in r.store)
              && IsSubsequence(r.store, page.store)
              && r.listed == Listing(r.store, kind)
              && r.shown == r.listed
              && IsSubsequence(r.shown, r.store)
              && (forall p :: p in r.shown <==> p in page.store && p.id != id && p.kind == kind && p.status == Approved)
  {
    if !CanModerate(viewer) then page
    else OpenArchive(DeletePost(page.store, id), kind)
  }

  /** Reloading the archive after a delete is the same as deleting from the archive already shown. */
  lemma ArchiveDeleteCommutes(posts: seq<Post>, kind: PostType, id: string)
    ensures Listing(DeletePost(posts, id), kind) == DeletePost(Listing(posts, kind), id)
  {
    FilterCommutes(posts, LacksId(id), Listed(kind));
  }
}

=== FILE: post_card.dfy ===
/**
 The post card (components/PostCard.tsx): commenting, the download button's
 counter effect, the comment count, and who is offered the delete button.
 The comment's id and time are parameters.
 */
module PostCard {
  import opened Results
  import opened Types
  import opened Seqs
  import opened ContentService
  import opened Access

  /** The label a commenter without a name is shown under. */
  const DefaultCommenterName: string := "کاربر"

  /** `currentUser.name || 'کاربر'`: an absent or empty name falls back to the default label. */
  function CommenterName(name: Option<string>): (r: string)
    ensures name.Some? && |name.value| > 0 ==> r == name.value
    ensures name.None? || |name.value| == 0 ==> r == DefaultCommenterName
    ensures |r| > 0
  {
    if name.Some? && |name.value| > 0 then name.value else DefaultCommenterName
  }

  /**
   `handleComment`: without a session or with a blank text nothing is stored; otherwise the
   untrimmed text is appended to the post's comments under the viewer's id and name.
   */
  function HandleComment(viewer: Option<User>, posts: seq<Post>, post: Post, text: string,
                         freshId: string, now: Stamp): (r: seq<Post>)
    ensures viewer.None? || IsBlank(text) ==> r == posts
    ensures |r| == |posts|
    ensures viewer.Some? && !IsBlank(text) ==>
              forall i :: IsFirstPost(posts, post.id, i) ==>
                var cs := CommentsOf(r[i]);
                && |cs| > 0
                && cs[..|cs| - 1] == CommentsOf(posts[i])
                && cs[|cs| - 1].content == text
                && cs[|cs| - 1].postId == post.id
                && cs[|cs| - 1].userId == viewer.value.id
                && cs[|cs| - 1].userName == CommenterName(viewer.value.name)
    ensures viewer.Some? && !IsBlank(text) ==>
              r == AddComment(posts, post.id, Comment(freshId, post.id, viewer.value.id,
                                                      CommenterName(viewer.value.name), text, now))
    ensures !PostIdTaken(posts, post.id) ==> r == posts
    ensures forall i :: 0 <= i < |posts| && !IsFirstPost(posts, post.id, i) ==> r[i] == posts[i]
    ensures forall i :: 0 <= i < |posts| ==> r[i] == posts[i].(comments := r[i].comments)
  {
    if viewer.None? || IsBlank(text) then posts
    else
      var c := Comment(freshId, post.id, viewer.value.id, CommenterName(viewer.value.name), text, now);
      var r := AddComment(posts, post.id, c);
      assert forall i :: IsFirstPost(posts, post.id, i) ==> CommentsOf(r[i]) == CommentsOf(posts[i]) + [c];
      r
  }

  /** `handleDownload`: records a view (not a download) on the post. */
  function HandleDownload(posts: seq<Post>, post: Post): (r: seq<Post>)
    ensures |r| == |posts|
    ensures forall i :: 0 <= i < |posts| ==> r[i].downloads == posts[i].downloads
    ensures forall i :: 0 <= i < |posts| ==>
              r[i].views == (if IsFirstPost(posts, post.id, i) then posts[i].views + 1 else posts[i].views)
    ensures forall i :: 0 <= i < |posts| ==> r[i] == posts[i].(views := r[i].views)
    ensures !PostIdTaken(posts, post.id) ==> r == posts
  {
    IncrementView(posts, post.id)
  }

  /** The views of all posts added up. */
  function TotalViews(posts: seq<Post>): nat
    decreases |posts|
  {
    if |posts| == 0 then 0 else posts[0].views + TotalViews(posts[1..])
  }

  /** Replacing one post changes the total by the difference of the two view counts. */
  lemma {:induction false} TotalViewsUpdate(posts: seq<Post>, k: nat, p: Post)
    requires k < |posts|
    ensures TotalViews(posts[k := p]) == TotalViews(posts) - posts[k].views + p.views
    decreases |posts|
  {
    if k == 0 {
      assert posts[k := p][1..] == posts[1..];
    } else {
      assert posts[k := p][1..] == posts[1..][k - 1 := p];
      TotalViewsUpdate(posts[1..], k - 1, p);
    }
  }

  /** A download adds exactly one view to the whole store when the post exists, none otherwise. */
  lemma DownloadAddsOneView(posts: seq<Post>, post: Post)
    ensures TotalViews(HandleDownload(posts, post)) == TotalViews(posts) + (if PostIdTaken(posts, post.id) then 1 else 0)
  {
    var r := HandleDownload(posts, post);
    match FindFirst(posts, HasId(post.id))
    case None =>
    case Some(k) =>
      assert IsFirstPost(posts, post.id, k);
      assert r == posts[k := posts[k].(views := posts[k].views + 1)];
      TotalViewsUpdate(posts, k, posts[k].(views := posts[k].views + 1));
  }

  /** `post.comments?.length || 0`: the number shown beside the comment icon. */
  function CommentCount(p: Post): (r: nat)
    ensures r == |CommentsOf(p)|
    ensures p.comments.None? ==> r == 0
  {
    match p.comments
    case None => 0
    case Some(cs) => |cs|
  }

  /** Whether the card shows a delete button: in the admin view whenever a handler is given, elsewhere only to moderators. */
  function ShowsDelete(viewer: Option<User>, isAdminView: bool, hasDeleteHandler: bool): (r: bool)
    ensures r ==> hasDeleteHandler
    ensures isAdminView ==> (r <==> hasDeleteHandler)
    ensures !isAdminView ==> (r <==> CanModerate(viewer) && hasDeleteHandler)
  {
    if isAdminView then hasDeleteHandler else CanModerate(viewer) && hasDeleteHandler
  }
}

=== FILE: profile_page.dfy ===
/**
 The member's own page (app/profile/page.tsx): every post the signed-in user
 authored, whatever its status, with a status label and, for rejected posts
 only, the rejection reason.
 */
module ProfilePage {
  import opened Results
  import opened Types
  import opened Seqs

  /** The predicate "my posts" are filtered with. */
  function OwnedBy(userId: string): Post -> bool {
    (p: Post) => p.userId == userId
  }

  /** "My posts": nothing without a session, else every post whose author id is the viewer's, in store order. */
  function MyPosts(viewer: Option<User>, posts: seq<Post>): (r: seq<Post>)
    ensures viewer.None? ==> r == []
    ensures viewer.Some? ==> forall p :: p in r <==> p in posts && p.userId == viewer.value.id
    ensures IsSubsequence(r, posts)
  {
    match viewer
    case None => []
    case Some(u) => Filter(posts, OwnedBy(u.id))
  }

  /** The labels the status badge renders: one conditional per status, as on the page. */
  function StatusLabels(status: PostStatus): (r: seq<string>)
    ensures |r| == 1
  {
    (if status == Approved then ["منتشر شده"] else [])
    + (if status == Pending then ["در حال بررسی"] else [])
    + (if status == Rejected then ["رد شده"] else [])
  }

  /** The rejection panel: shown only for a rejected post, with its reason (an absent reason renders empty). */
  function ReasonPanel(p: Post): (r: Option<string>)
    ensures r.Some? <==> p.status == Rejected
    ensures r.Some? ==> r.value == p.rejectionReason.GetOr("")
  {
    if p.status == Rejected then Some(p.rejectionReason.GetOr("")) else None
  }

  /** Different statuses never share a label, so the badge identifies the status. */
  lemma StatusLabelsDistinguish(s1: PostStatus, s2: PostStatus)
    ensures StatusLabels(s1) == StatusLabels(s2) <==> s1 == s2
  {
    if s1 != s2 {
      assert StatusLabels(s1)[0][0] != StatusLabels(s2)[0][0];
    }
  }
}

=== FILE: results.dfy ===
/** Failure-carrying wrappers shared by every module of the model. */
module Results {

  /** An optional value: the model's rendering of TypeScript's `T | undefined` and `T | null`. */
  datatype Option<+T> = None | Some(value: T) {

    /** The wrapped value, or `default` when there is none. */
    function GetOr(default: T): T {
      match this
      case Some(v) => v
      case None => default
    }
  }

  /** The outcome of an operation that either succeeds with a value or fails with an error. */
  datatype Result<+T, +E> = Success(value: T) | Failure(error: E)
}

=== FILE: scenarios.dfy ===
/**
 End-to-end properties that chain several pages: a submission waits in the
 moderation queue, becomes public only once approved, shows its rejection
 reason to its author, and a third submission in one month is refused.
 */
module Scenarios {
  import opened Results
  import opened Types
  import opened Seqs
  import opened ContentService
  import opened Access
  import opened AdminPage
  import opened AddPage
  import opened Listings
  import opened ProfilePage
  import opened PostCard
  import opened ContentProperties
  import opened AdminProperties

  /** A submitted post waits in the moderation queue, appears in no public archive, and is listed on its author's page. */
  lemma SubmissionAwaitsModeration(viewer: Option<User>, posts: seq<Post>, form: AddForm, freshId: string,
                                   now: Stamp, media: Upload, poster: Upload, kind: PostType)
    requires Submit(viewer, posts, form, freshId, now, media, poster).Success?
    ensures var after := Submit(viewer, posts, form, freshId, now, media, poster).value;
      && after[0] in PendingQueue(after)
      && after[0] !in Listing(after, kind)
      && after[0] in MyPosts(viewer, after)
  {
    var after := Submit(viewer, posts, form, freshId, now, media, poster).value;
    assert after[0] in after;
  }

  /** A signed-in author with a complete form, below the quota and with the uploads accepted, gets the post queued. */
  lemma ReadySubmissionIsQueued(author: User, posts: seq<Post>, form: AddForm, freshId: string, now: Stamp,
                                mediaUrl: string, poster: Upload)
    requires |form.title| > 0 && |form.description| > 0 && form.media.Some?
    requires CanUserPost(posts, author.id, now)
    requires form.poster.None? || poster.Uploaded?
    ensures var r := Submit(Some(author), posts, form, freshId, now, Uploaded(mediaUrl), poster);
      && r.Success?
      && r.value[0].id == freshId
      && r.value[0] in PendingQueue(r.value)
      && r.value[0] in MyPosts(Some(author), r.value)
  {
    var after := Submit(Some(author), posts, form, freshId, now, Uploaded(mediaUrl), poster).value;
    assert after[0] in after;
  }

  /** A submission with a fresh id, once approved by a moderator, is in the archive of its category. */
  lemma ApprovedSubmissionIsListed(viewer: Option<User>, moderator: Option<User>, posts: seq<Post>, form: AddForm,
                                   freshId: string, now: Stamp, media: Upload, poster: Upload)
    requires UniqueIds(posts) && !PostIdTaken(posts, freshId)
    requires CanModerate(moderator)
    requires Submit(viewer, posts, form, freshId, now, media, poster).Success?
    ensures var after := Submit(viewer, posts, form, freshId, now, media, poster).value;
      var approved := Approve(moderator, after, freshId).value;
      && approved[0] == after[0].(status := Approved)
      && approved[0] in Listing(approved, form.kind)
      && approved[1..] == posts
  {
    var after := Submit(viewer, posts, form, freshId, now, media, poster).value;
    assert UniqueIds(after) by {
      forall i, j | 0 <= i < j < |after|
        ensures after[i].id != after[j].id
      {
        if i == 0 {
          assert after[j] == posts[j - 1];
        } else {
          assert after[i] == posts[i - 1] && after[j] == posts[j - 1];
        }
      }
    }
    ApproveOnlyFromPending(moderator, after, 0);
    var approved := Approve(moderator, after, freshId).value;
    assert approved[0] in approved;
  }

  /** A rejected post stays on its author's page, and the panel there shows the reason exactly as typed. */
  lemma RejectionReasonReachesAuthor(moderator: Option<User>, author: User, posts: seq<Post>, k: nat, reason: string)
    requires CanModerate(moderator)
    requires UniqueIds(posts)
    requires k < |posts| && posts[k].status == Pending && posts[k].userId == author.id
    ensures var after := Reject(moderator, posts, posts[k].id, reason).value;
      && after[k] in MyPosts(Some(author), after)
      && ReasonPanel(after[k]) == Some(reason)
  {
    RejectOnlyFromPending(moderator, posts, k, reason);
    var after := Reject(moderator, posts, posts[k].id, reason).value;
    assert after[k] in after;
  }

  /** After two accepted submissions in one month, a third by the same user in that month is refused before any upload. */
  lemma ThirdSubmissionRefused(user: User, posts: seq<Post>, f1: AddForm, f2: AddForm, f3: AddForm,
                               id1: string, id2: string, id3: string, now: Stamp,
                               m1: Upload, p1: Upload, m2: Upload, p2: Upload, m3: Upload, p3: Upload)
    requires Submit(Some(user), posts, f1, id1, now, m1, p1).Success?
    requires Submit(Some(user), Submit(Some(user), posts, f1, id1, now, m1, p1).value, f2, id2, now, m2, p2).Success?
    requires |f3.title| > 0 && |f3.description| > 0 && f3.media.Some?
    ensures var after1 := Submit(Some(user), posts, f1, id1, now, m1, p1).value;
      var after2 := Submit(Some(user), after1, f2, id2, now, m2, p2).value;
      Submit(Some(user), after2, f3, id3, now, m3, p3) == Failure(RateLimitExceeded)
  {
    var after1 := Submit(Some(user), posts, f1, id1, now, m1, p1).value;
    var after2 := Submit(Some(user), after1, f2, id2, now, m2, p2).value;
    assert after1 == SavePost(posts, after1[0]) by { assert after1 == [after1[0]] + after1[1..]; }
    assert after2 == SavePost(after1, after2[0]) by { assert after2 == [after2[0]] + after2[1..]; }
    SaveCountedRaisesCount(posts, after1[0], user.id, now);
    SaveCountedRaisesCount(after1, after2[0], user.id, now);
  }

  /**
   A comment from a signed-in viewer raises the stored post's comment count by one; an open
   card shows the new count only once its page reloads the posts.
   */
  lemma CommentRaisesCount(viewer: User, posts: seq<Post>, k: nat, text: string, freshId: string, now: Stamp)
    requires UniqueIds(posts)
    requires k < |posts|
    requires !IsBlank(text)
    ensures CommentCount(HandleComment(Some(viewer), posts, posts[k], text, freshId, now)[k])
            == CommentCount(posts[k]) + 1
  {
    var c := Comment(freshId, posts[k].id, viewer.id, CommenterName(viewer.name), text, now);
    CommentAppended(posts, k, c);
  }
}

=== FILE: seqs.dfy ===
/**
 Sequence and string helpers that mirror the JavaScript array and string
 built-ins the application relies on: `filter`, `find`/`findIndex`,
 `includes`, `startsWith`, `trim` and `split`.
 */
module Seqs {
  import opened Results

  /** `a` is obtained from `b` by deleting elements, keeping the order of the rest. */
  predicate IsSubsequence<T(==)>(a: seq<T>, b: seq<T>)
    decreases |b|
  {
    |a| == 0 || (|b| > 0 && ((a[0] == b[0] && IsSubsequence(a[1..], b[1..])) || IsSubsequence(a, b[1..])))
  }

  /** `Array.prototype.filter`: the elements of `s` that satisfy `keep`, in their original order. */
  function Filter<T(==,!new)>(s: seq<T>, keep: T -> bool): (r: seq<T>)
    ensures |r| <= |s|
    ensures forall x :: x in r <==> x in s && keep(x)
    ensures IsSubsequence(r, s)
    decreases |s|
  {
    if |s| == 0 then []
    else
      var rest := Filter(s[1..], keep);
      if keep(s[0]) then
        assert ([s[0]] + rest)[1..] == rest;
        [s[0]] + rest
      else
        rest
  }

  /** `Array.prototype.findIndex` (and `find`): the index of the first element satisfying `f`. */
  function FindFirst<T>(s: seq<T>, f: T -> bool): (r: Option<nat>)
    ensures r.Some? ==> r.value < |s| && f(s[r.value]) && forall j :: 0 <= j < r.value ==> !f(s[j])
    ensures r.None? <==> forall j :: 0 <= j < |s| ==> !f(s[j])
    decreases |s|
  {
    if |s| == 0 then None
    else if f(s[0]) then Some(0)
    else match FindFirst(s[1..], f)
      case None => None
      case Some(k) => Some(k + 1)
  }

  /** `prefix` is an initial segment of `s` (`String.prototype.startsWith`). */
  predicate IsPrefix(prefix: string, s: string) {
    |prefix| <= |s| && s[..|prefix|] == prefix
  }

  /** `hay.includes(needle)`: `needle` occurs as a contiguous substring of `hay`; the empty string occurs everywhere. */
  predicate Contains(hay: string, needle: string)
    decreases |hay|
  {
    IsPrefix(needle, hay) || (|hay| > 0 && Contains(hay[1..], needle))
  }

  /**
   The code points ECMAScript's `String.prototype.trim` removes: the WhiteSpace
   production (TAB, VT, FF, SPACE, NBSP, ZWNBSP and the Unicode Space_Separator
   category) and the LineTerminator production (LF, CR, LS, PS).
   */
  predicate IsTrimmable(c: char) {
    || c == '\U{0009}' || c == '\U{000B}' || c == '\U{000C}' || c == '\U{0020}'
    || c == '\U{00A0}' || c == '\U{FEFF}' || c == '\U{1680}' || ('\U{2000}' <= c <= '\U{200A}')
    || c == '\U{202F}' || c == '\U{205F}' || c == '\U{3000}'
    || c == '\U{000A}' || c == '\U{000D}' || c == '\U{2028}' || c == '\U{2029}'
  }

  /** `!s.trim()`: trimming leaves the empty string, i.e. `s` consists of trimmable code points only. */
  predicate IsBlank(s: string) {
    forall i :: 0 <= i < |s| ==> IsTrimmable(s[i])
  }

  /** `s.split(sep)[0]`: the part of `s` before the first `sep`, or all of `s` when `sep` does not occur. */
  function BeforeFirst(s: string, sep: char): (r: string)
    ensures IsPrefix(r, s)
    ensures sep !in r
    ensures |r| < |s| ==> s[|r|] == sep
    decreases |s|
  {
    if |s| == 0 then ""
    else if s[0] == sep then ""
    else
      var rest := BeforeFirst(s[1..], sep);
      assert ([s[0]] + rest)[1..] == rest;
      [s[0]] + rest
  }

  /** The index `k` satisfies `f` and no earlier index does, so `FindFirst` returns it. */
  lemma FindFirstIs<T>(s: seq<T>, f: T -> bool, k: nat)
    requires k < |s| && f(s[k])
    requires forall j :: 0 <= j < k ==> !f(s[j])
    ensures FindFirst(s, f) == Some(k)
  {
  }

  /** Every sequence is a subsequence of itself. */
  lemma {:induction false} SubsequenceReflexive<T>(s: seq<T>)
    ensures IsSubsequence(s, s)
    decreases |s|
  {
    if |s| > 0 {
      SubsequenceReflexive(s[1..]);
    }
  }

  /** A kept element survives the filter as many times as it occurs; a dropped one not at all. */
  lemma {:induction false} FilterCounts<T(!new)>(s: seq<T>, keep: T -> bool, x: T)
    ensures multiset(Filter(s, keep))[x] == if keep(x) then multiset(s)[x] else 0
    decreases |s|
  {
    if |s| > 0 {
      FilterCounts(s[1..], keep, x);
      assert s == [s[0]] + s[1..];
      if keep(s[0]) {
        assert Filter(s, keep) == [s[0]] + Filter(s[1..], keep);
      }
    }
  }

  /** Filtering distributes over concatenation. */
  lemma {:induction false} FilterConcat<T(!new)>(a: seq<T>, b: seq<T>, keep: T -> bool)
    ensures Filter(a + b, keep) == Filter(a, keep) + Filter(b, keep)
    decreases |a|
  {
    if |a| == 0 {
      assert a + b == b;
    } else {
      assert (a + b)[1..] == a[1..] + b;
      FilterConcat(a[1..], b, keep);
    }
  }

  /** A filter that keeps every element of `s` returns `s` itself. */
  lemma {:induction false} FilterKeepsAll<T(!new)>(s: seq<T>, keep: T -> bool)
    requires forall x :: x in s ==> keep(x)
    ensures Filter(s, keep) == s
    decreases |s|
  {
    if |s| > 0 {
      assert forall x :: x in s[1..] ==> x in s;
      FilterKeepsAll(s[1..], keep);
      assert [s[0]] + s[1..] == s;
    }
  }

  /** Two filters may be applied in either order. */
  lemma {:induction false} FilterCommutes<T(!new)>(s: seq<T>, f: T -> bool, g: T -> bool)
    ensures Filter(Filter(s, f), g) == Filter(Filter(s, g), f)
    decreases |s|
  {
    if |s| > 0 {
      FilterCommutes(s[1..], f, g);
      var x, rest := s[0], s[1..];
      assert s == [x] + rest;
      FilterConcat([x], rest, f);
      FilterConcat([x], rest, g);
      FilterConcat(Filter([x], f), Filter(rest, f), g);
      FilterConcat(Filter([x], g), Filter(rest, g), f);
    }
  }
}

=== FILE: types.dfy ===
/**
 The records and enumerations of the site (types.ts) and its configuration
 constants (constants.ts). Timestamps are abstracted to the local calendar
 year and month they fall in, which is all the rate limiter inspects.
 */
module Types {
  import opened Results

  /** `UserRole`: 'USER', 'ADMIN' and 'SUPER_ADMIN'. */
  datatype UserRole = Regular | Admin | SuperAdmin

  /** `PostStatus`: the moderation state of a post. */
  datatype PostStatus = Pending | Approved | Rejected

  /** `PostType`: the two content categories, 'SPEECH' and 'MANQABAT'. */
  datatype PostType = Speech | Manqabat

  /** `mediaType`: 'audio' or 'video'. */
  datatype MediaType = Audio | Video

  /** A creation time, reduced to the local calendar year and month (`getFullYear`, `getMonth`). */
  datatype Stamp = Stamp(year: int, month: int)

  /** Both stamps lie in the same calendar month of the same year. */
  predicate SameMonth(a: Stamp, b: Stamp) {
    a.month == b.month && a.year == b.year
  }

  /** A member account. `password` is the plain credential, kept for the super-admin's view. */
  datatype User = User(
    id: string,
    email: string,
    phone: Option<string>,
    name: Option<string>,
    role: UserRole,
    isDeleted: bool,
    password: Option<string>,
    createdAt: Stamp)

  /** A comment stored inline in its post. */
  datatype Comment = Comment(
    id: string,
    postId: string,
    userId: string,
    userName: string,
    content: string,
    createdAt: Stamp)

  /** A submitted recording with its moderation status and embedded comments. */
  datatype Post = Post(
    id: string,
    userId: string,
    userName: Option<string>,
    kind: PostType,
    title: string,
    description: string,
    mediaUrl: string,
    mediaType: MediaType,
    posterUrl: Option<string>,
    status: PostStatus,
    rejectionReason: Option<string>,
    location: Option<string>,
    date: Option<string>,
    views: nat,
    downloads: nat,
    createdAt: Stamp,
    comments: Option<seq<Comment>>)

  /** `MAX_FILE_SIZE_MB`: the largest accepted media file, in mebibytes. */
  const MaxFileSizeMb: nat := 10

  /** `MAX_POSTS_PER_MONTH`: posts one user may create per calendar month. */
  const MaxPostsPerMonth: nat := 2

  /** The bootstrap super-administrator's credentials and fixed identity. */
  const InitialSuperAdminEmail: string := "super@farashan.ir"
  const InitialSuperAdminPass: string := "123456"
  const SuperAdminId: string := "super-admin-id"
  const SuperAdminName: string := "Super Admin"
}
